=== FILE: README.md ===
# Authentication core of CivicAI, modelled in Dafny

This project models the authentication core of the CivicAI / RMS Simulation
Swift app and proves properties of that model. The model covers:

- **E-mail and password validation** (`ValidationUtils`). An e-mail is trimmed and split on `@`. The domain is split on `.`. The password rule is a length of at least six.
- **The login screen** (`LoginView`). `isFormValid` gates the button. `performLogin` runs a chain of guards, then makes one sign-in call and reacts to the returned `(success, error)` tuple.
- **Two tuple-returning authentication services**:
  - `SupabaseService` in `Sources/SupabaseService.swift`;
  - `SupabaseAuthService`, which has an optional client. When the client is missing, every tuple-returning call fails with "Authentication service not initialized", and `checkAuthStatus` returns silently.
  
  Both keep the published fields `isAuthenticated` and `currentUser`.
- **The session runtime of the simulation package** (`Sources/RMSSimulation/SupabaseService.swift`):
  - the three published fields (`currentUser`, `isAuthenticated`, `sessionState`), kept in step by `handleAuthStateChange` and `clearUserSession`;
  - the throwing authentication calls that drive those fields;
  - the list of realtime channels and their topics;
  - the `column=value` filter of `update` and `delete`;
  - the `SupabaseServiceError` taxonomy with its `errorDescription` and its keyword classifier `from`;
  - `executeOperation` and `executeBatch`.

Every SDK call whose outcome the modelled fields depend on is a parameter. The `update` and `delete` requests are returned instead of sent. A `Reply` holds either the value the SDK returned or the error it threw. The model is functional: each operation is a pure function from the old fields and the reply to the new fields and the result. A run of the service is a fold of its calls.

The Foundation string operations the code relies on are written out over `seq<char>` in module `Strings`:

- `contains` is case-sensitive substring search;
- `components(separatedBy:)` returns the maximal separator-free pieces;
- `trimmingCharacters(in:)` removes characters of a set from both ends.

Foundation's `.whitespaces` and `.newlines` are given as explicit character sets.

Some behaviours of the code are easy to misread; the model follows the code as written:

- A failed `refreshSession` or `signOut` in the session runtime throws before touching any field. The session stays in place.
- `executeBatch` returns one result per operation, in the order the tasks finish. This is not input order.
- `updatePassword` and `updateUserMetadata` set `currentUser` even when nobody is signed in. So "current user is the session's user" is not an invariant.
- `from` is case-sensitive. A `databaseError` thrown by `update` or `delete` and passed through `executeOperation` is described as "Database error: Invalid condition format. …". Its only `database` is capitalised, so it is re-classified as `unknown`.
- Conditions are trimmed with `.whitespaces` only, so newlines around a column or value stay.

## Model

| member | source | states |
|---|---|---|
| Strings.Split | Sources/ValidationUtils.swift:14 | `components(separatedBy:)` yields one more piece than there are separators; no piece holds the separator; the pieces joined with the separator give back the input |
| Strings.SplitJoin | Sources/ValidationUtils.swift:14 | splitting a join of separator-free pieces returns exactly those pieces (split and join are inverse) |
| Strings.NoEmptyPartIff | Sources/ValidationUtils.swift:23-25 | every dot-separated label is non-empty exactly when the text is non-empty, does not start or end with the separator and never doubles it |
| Strings.Contains | Sources/ValidationUtils.swift:21 | Foundation's case-sensitive `contains`: the needle occurs as a contiguous piece. `ContainsOccurs` and `OccursContains` characterise it both ways by occurrence at a position |
| Strings.ContainsOccurs | Sources/RMSSimulation/SupabaseService.swift:413-420 | a contained needle, such as a keyword `from` looks for, occurs at some position of the text |
| Strings.OccursContains | Sources/LoginView.swift:22-23 | a needle occurring at any position, such as the `@` and `.` the gate looks for, is contained |
| Strings.ContainsChar | Sources/ValidationUtils.swift:21 | `contains` of a one-character string holds exactly when that character occurs |
| Strings.Occurrences | Sources/RMSSimulation/SupabaseService.swift:187-188 | the separator count is zero exactly when the separator does not occur |
| Strings.Trim | Sources/ValidationUtils.swift:11 | trimming keeps a contiguous middle slice; everything cut on either side is in the set; the kept text begins and ends outside it |
| Strings.TrimUnique | Sources/ValidationUtils.swift:11 | any split point that meets the trimming conditions gives the same result, so trimming is uniquely determined |
| Strings.TrimEmptyIff | Sources/ValidationUtils.swift:11-12 | the trimmed text is empty exactly when every character is in the set |
| Strings.TrimIdempotent | Sources/ValidationUtils.swift:11 | trimming twice equals trimming once |
| Strings.TrimFixedIff | Sources/RMSSimulation/SupabaseService.swift:194 | trimming leaves a string unchanged exactly when it neither begins nor ends with a character of the set |
| Strings.TrimSurrounded | Sources/ValidationUtils.swift:11 | characters of the set added around a text do not change its trimmed form |
| Strings.TrimKeepsCharacters | Sources/ValidationUtils.swift:11 | every character of the trimmed text occurs in the original |
| Validation.IsValidEmail | Sources/ValidationUtils.swift:9-28 | `isValidEmail` step by step: trim, split on `@` into exactly two non-empty parts, require a dot in the domain and no empty dot-separated label. Its meaning is stated by the lemmas below |
| Validation.IsValidPassword | Sources/ValidationUtils.swift:33-35 | `isValidPassword`: at least six characters |
| Validation.IsValidLoginForm | Sources/ValidationUtils.swift:42-44 | `isValidLoginForm`: valid e-mail, valid password and both non-empty. `LoginFormIsConjunction` shows the last two checks are implied |
| Validation.ValidEmailIff | Sources/ValidationUtils.swift:9-28 | `isValidEmail` holds exactly when the trimmed text has one `@` with something before it, and after it a domain with a dot and no empty dot-separated label |
| Validation.ValidEmailHasShape | Sources/ValidationUtils.swift:9-28 | an accepted e-mail has that shape at some position of its trimmed form |
| Validation.ShapeIsValidEmail | Sources/ValidationUtils.swift:9-28 | every text whose trimmed form has that shape is accepted |
| Validation.BlankEmailRejected | Sources/ValidationUtils.swift:11-12 | the empty and whitespace-only texts are rejected, because trimming happens before the emptiness check |
| Validation.SurroundingWhitespaceIgnored | Sources/ValidationUtils.swift:11 | whitespace or newlines around a text do not change the verdict, and neither does trimming it first |
| Validation.NoAtRejected | Sources/ValidationUtils.swift:14-15 | a text without `@` is rejected |
| Validation.AddressParts | Sources/ValidationUtils.swift:14-25 | for an already trimmed `local@domain` with `@`-free parts, acceptance holds exactly when the local part is non-empty and the domain holds a dot with no leading, trailing or doubled dot |
| Validation.AcceptedAddress | Sources/ValidationUtils.swift:14-27 | a non-empty local part with a well-dotted domain is accepted |
| Validation.RejectedAddress | Sources/ValidationUtils.swift:20-21 | an empty local part or a dot-free domain is rejected |
| Validation.LoginFormIsConjunction | Sources/ValidationUtils.swift:42-44 | `isValidLoginForm` holds exactly when both the e-mail and the password rule hold; the extra non-empty checks are implied |
| ValidationExamples.AcceptedExamples | Tests/CivicAITests.swift:8-10 | the three addresses the unit tests expect to pass are accepted |
| ValidationExamples.AcceptsPlainAddress | Tests/CivicAITests.swift:8 | `test@example.com` is accepted |
| ValidationExamples.AcceptsDottedAddress | Tests/CivicAITests.swift:9 | `user.name@domain.co.uk` is accepted; dots in the local part are not inspected |
| ValidationExamples.AcceptsTaggedAddress | Tests/CivicAITests.swift:10 | `test+tag@example.org` is accepted |
| ValidationExamples.RejectedExamples | Tests/CivicAITests.swift:13-17 | the addresses the unit tests expect to fail are rejected, together with `invalid-email` from the form test |
| ValidationExamples.RejectsMissingAt | Tests/CivicAITests.swift:14-17 | `invalid` and `test.example.com`, and `invalid-email` from the form test, are rejected for want of an `@` |
| ValidationExamples.RejectsEmptyLocalPart | Tests/CivicAITests.swift:15 | `@example.com` is rejected |
| ValidationExamples.RejectsEmptyDomain | Tests/CivicAITests.swift:16 | `test@` is rejected |
| ValidationExamples.PasswordExamples | Tests/CivicAITests.swift:22-29 | of the unit tests' passwords, exactly the three of six or more characters pass |
| ValidationExamples.LoginFormExamples | Tests/CivicAITests.swift:34-40 | of the unit tests' form inputs, only `test@example.com` with `password123` is a valid form |
| LoginScreen.ValidEmailHasAtAndDot | Sources/LoginView.swift:19-25 | an e-mail `ValidationUtils` accepts contains both `@` and `.`, even before trimming |
| LoginScreen.LoginFormPassesGate | Sources/LoginView.swift:19-25 | every field pair `isValidLoginForm` accepts also passes the button's `isFormValid` gate |
| LoginScreen.GateAcceptsDotBeforeAt | Sources/LoginView.swift:19-25 | `a.b@c` with a long enough password passes `isFormValid` |
| LoginScreen.GateAcceptsInvalidEmail | Sources/LoginView.swift:19-25 | the gate is strictly weaker than the e-mail check: `a.b@c` passes the gate but is rejected as an e-mail |
| LoginScreen.IsFormValid | Sources/LoginView.swift:19-25 | the button gate: both fields filled, an `@` and a `.` somewhere in the e-mail, a password of six characters or more |
| LoginScreen.ShowError | Sources/LoginView.swift:254-257 | the alert is raised with the given message, and every other field of the form is left as it was |
| LoginScreen.Guard | Sources/LoginView.swift:219-234 | the guards let the call through exactly when `isValidLoginForm` holds; a failed gate gives the fill-in message; a passed gate with a bad e-mail gives the e-mail message; the password-length message can never appear |
| LoginScreen.PerformLogin | Sources/LoginView.swift:217-251 | the sign-in call is made, with the form's own fields, exactly when the form is valid. A rejected form shows the guard's message and changes nothing else: the fill-in message when the button gate fails, the e-mail message when the gate passes but the e-mail is invalid. A success clears e-mail and password. A failure shows the service's message, or the generic one when it sent none. Loading is off afterwards |
| LoginScreen.LoginThroughService | Sources/LoginView.swift:236-250 | through `SupabaseService.signIn`, a returned session authenticates its user and clears the form. A thrown error leaves the service state alone and shows the service's own message, never the generic fallback |
| ServiceErrors.ErrorDescription | Sources/RMSSimulation/SupabaseService.swift:394-407 | the description is longer than the message and ends with it |
| ServiceErrors.ErrorDescriptionInjective | Sources/RMSSimulation/SupabaseService.swift:394-407 | different errors have different descriptions |
| ServiceErrors.From | Sources/RMSSimulation/SupabaseService.swift:409-424 | `from` keeps the description verbatim as the message; the chosen category's keywords occur in it; no higher-priority category's keywords do |
| ServiceErrors.FromPicksFirstMention | Sources/RMSSimulation/SupabaseService.swift:413-420 | the variant chosen is exactly the first category, in priority order, whose keywords the description contains |
| ServiceErrors.NoKeywordIsUnknown | Sources/RMSSimulation/SupabaseService.swift:421-423 | a description with none of the eight keywords becomes `unknown` |
| ServiceErrors.FromMonotone | Sources/RMSSimulation/SupabaseService.swift:409-424 | adding text around a description can only move it to a higher-priority category |
| ServiceErrors.FromExamples | Tests/RMSSimulationTests/SupabaseServiceTests.swift:54-64 | "auth failed" is an authentication failure whose message contains "auth"; "auth network" is an authentication failure, not a network error |
| ServiceErrors.ReclassifyDescription | Sources/RMSSimulation/SupabaseService.swift:394-424 | re-classifying an error by its own description keeps the description as message and never lowers its category's priority |
| AuthService.CheckAuthStatus | Sources/SupabaseService.swift:27-36 | authenticated exactly when the stored session came back, with that session's user; a user is current exactly when authenticated |
| AuthService.SignIn | Sources/SupabaseService.swift:43-59 | success exactly when a session came back; then its user is authenticated. On failure the state is unchanged and the error is the `AuthError`'s description or the fixed sign-in text. An error message comes exactly with failure |
| AuthService.SignOut | Sources/SupabaseService.swift:62-71 | success exactly when the remote sign-out returned, and then both fields are reset. Failure keeps the state and reports "Failed to sign out" |
| AuthService.SignUp | Sources/SupabaseService.swift:78-98 | success exactly when a user came back. Then that user is current and authenticated exactly when a session came with it. A response without a user is a failure asking for confirmation. Errors are reported like sign-in's. State is unchanged on failure |
| AuthService.Apply | Sources/SupabaseService.swift:27-98 | no call authenticates without a current user; calls other than sign-up keep "current user exactly when authenticated" |
| AuthService.RunKeepsConsistent | Sources/SupabaseService.swift:10-98 | from a consistent state, such as the initial one, any sequence of calls keeps authentication implying a current user |
| AuthService.RunWithoutSignUpAgrees | Sources/SupabaseService.swift:27-71 | without sign-ups, a user is current exactly when someone is authenticated |
| AuthService.SignUpAwaitingConfirmation | Sources/SupabaseService.swift:85-88 | a sign-up returning a user without a session leaves that user current but unauthenticated |
| AuthClientService.Setup | Sources/SupabaseAuthService.swift:13-39 | a client exists exactly when the configured URL parses; the fields start signed out |
| AuthClientService.CheckAuthStatus | Sources/SupabaseAuthService.swift:42-53 | without a client nothing changes. With one, authenticated exactly when a session came back, with its user |
| AuthClientService.SignIn | Sources/SupabaseAuthService.swift:60-80 | without a client it reports "not initialized" and changes nothing. Success exactly with a client and a returned session, which authenticates its user. Failure leaves the service as it was |
| AuthClientService.SignOut | Sources/SupabaseAuthService.swift:83-96 | without a client it reports "not initialized". Success exactly with a client and a completed sign-out, which resets both fields. Otherwise the service is unchanged and "Failed to sign out" is reported |
| AuthClientService.SignUp | Sources/SupabaseAuthService.swift:103-123 | without a client it reports "not initialized". Any returned response succeeds. It copies the response's user as it is, a missing one included, and is authenticated exactly when a session came. Failure leaves the service unchanged |
| AuthClientService.NoClientNoEffect | Sources/SupabaseAuthService.swift:42-106 | without a client every call leaves the service unchanged, and every tuple-returning call reports "not initialized" |
| AuthClientService.SameAsAuthService | Sources/SupabaseAuthService.swift:42-123 | with a client, the status check, sign-in and sign-out behave as in `SupabaseService`, and so does sign-up whenever the response has a user |
| AuthClientService.SignUpWithoutUserDiffers | Sources/SupabaseAuthService.swift:114-116 | a sign-up response without a user succeeds and clears the current user here, but is a failure asking for confirmation in `SupabaseService` |
| AuthClientService.Apply | Sources/SupabaseAuthService.swift:42-123 | no call adds or removes the client; a call keeps "authenticated implies a current user" as long as a returned sign-up response is well formed |
| AuthClientService.RunKeepsConsistent | Sources/SupabaseAuthService.swift:42-123 | as long as every returned sign-up response's session belongs to its user, no sequence of calls authenticates without a current user |
| AuthClientService.SignUpAwaitingConfirmation | Sources/SupabaseAuthService.swift:114-116 | after a sign-up awaiting confirmation a user is current but not authenticated |
| SessionRuntime.UnsubscribeAll | Sources/RMSSimulation/SupabaseService.swift:252-257 | every channel is unsubscribed, in list order, and the list emptied; nothing else changes |
| SessionRuntime.ClearUserSession | Sources/RMSSimulation/SupabaseService.swift:371-376 | the fields return to their initial values and every channel that was subscribed is unsubscribed |
| SessionRuntime.HandleAuthStateChange | Sources/RMSSimulation/SupabaseService.swift:361-369 | a session sets user, flag and session state from that session and leaves the channels; no session clears the user session. Either way the current user is exactly the session's user |
| SessionRuntime.SignIn | Sources/RMSSimulation/SupabaseService.swift:93-99 | the SDK's own error is rethrown unchanged and changes nothing. A returned session goes through `handleAuthStateChange`: its user becomes the current user, the runtime is authenticated with that session, the channels are kept and nothing is unsubscribed |
| SessionRuntime.SignUp | Sources/RMSSimulation/SupabaseService.swift:102-110 | the SDK's own error is rethrown unchanged, changes nothing and unsubscribes nothing. A returned response authenticates exactly when it carries a session. With one, that session's user becomes the current user, the runtime is authenticated with it and the channels are kept. Without one, the user session is cleared and every channel unsubscribed |
| SessionRuntime.SignOut | Sources/RMSSimulation/SupabaseService.swift:126-129 | local state is cleared, with every channel unsubscribed, only when the remote sign-out returned; otherwise the SDK's own error is rethrown unchanged and everything stays as it was |
| SessionRuntime.RefreshSession | Sources/RMSSimulation/SupabaseService.swift:160-163 | a failed refresh rethrows the SDK's own error unchanged and keeps the current session. A new session goes through `handleAuthStateChange`: it replaces the session state, its user becomes the current user, and the channels are kept |
| SessionRuntime.PassThrough | Sources/RMSSimulation/SupabaseService.swift:113-134 | OAuth sign-in and password-reset mails never change the runtime; their only effect is the SDK's own error, rethrown unchanged |
| SessionRuntime.UpdateUser | Sources/RMSSimulation/SupabaseService.swift:137-150 | the returned user replaces the current one and nothing else changes, whatever the session; the SDK's own error is rethrown unchanged and changes nothing |
| SessionRuntime.IsUserAuthenticated | Sources/RMSSimulation/SupabaseService.swift:166-168 | in a runtime whose fields are in step, `isUserAuthenticated` equals `isAuthenticated` |
| SessionRuntime.TableTopic | Sources/RMSSimulation/SupabaseService.swift:216 | a table's channel topic is `public:` followed by the table name. `RowTopicIsTableTopic` and `TableTopicNotRowTopic` relate it to row topics |
| SessionRuntime.RowTopic | Sources/RMSSimulation/SupabaseService.swift:235 | a row's channel topic is `public:`, the table, `:id=eq.` and the id. `RowTopicInjective` shows it names its table and id |
| SessionRuntime.Subscribe | Sources/RMSSimulation/SupabaseService.swift:215-248 | a subscription appends exactly one channel for the topic at the end and keeps the existing list and every other field |
| SessionRuntime.SubscribeKeepsDuplicates | Sources/RMSSimulation/SupabaseService.swift:215-229 | subscribing to the same table twice adds two channels for it; there is no deduplication |
| SessionRuntime.RowTopicIsTableTopic | Sources/RMSSimulation/SupabaseService.swift:216-235 | a row topic is the table topic of the table name extended with the row filter |
| SessionRuntime.TableTopicNotRowTopic | Sources/RMSSimulation/SupabaseService.swift:216-235 | for table names without a colon, a table topic is never a row topic |
| SessionRuntime.RowTopicInjective | Sources/RMSSimulation/SupabaseService.swift:234-235 | for table names without a colon, a row topic determines its table and id |
| SessionRuntime.Step | Sources/RMSSimulation/SupabaseService.swift:93-257 | every call keeps the three published fields in step and never enters `loading`. Every call except the user updates keeps the current user exactly the session's user |
| SessionRuntime.RunKeepsInv | Sources/RMSSimulation/SupabaseService.swift:361-385 | from fields in step, any sequence of calls keeps them in step, and `isUserAuthenticated` stays equal to `isAuthenticated` |
| SessionRuntime.RunWithoutUpdatesIsStrict | Sources/RMSSimulation/SupabaseService.swift:361-376 | without user updates, the current user is always exactly the session's user |
| SessionRuntime.UpdateWhileSignedOut | Sources/RMSSimulation/SupabaseService.swift:137-142 | a password update from the signed-out start leaves a current user with no session, and `isUserAuthenticated` stays false |
| Conditions.ParseCondition | Sources/RMSSimulation/SupabaseService.swift:186-194 | a condition parses exactly when it holds a single `=`; otherwise the error is the database error with the fixed format message |
| Conditions.ParsedFilterShape | Sources/RMSSimulation/SupabaseService.swift:187-194 | a parsed condition is `column=value` with `=`-free sides, and the filter is those sides with spaces and tabs trimmed |
| Conditions.ParseFormat | Sources/RMSSimulation/SupabaseService.swift:187-194 | parsing inverts writing a filter out, for `=`-free, already trimmed sides |
| Conditions.FormatParse | Sources/RMSSimulation/SupabaseService.swift:187-194 | a parsed filter written back out parses to the same filter |
| Conditions.MalformedConditions | Sources/RMSSimulation/SupabaseService.swift:187-190 | a condition with no `=`, the empty one included, or with two or more is rejected |
| Conditions.Update | Sources/RMSSimulation/SupabaseService.swift:186-196 | a malformed condition throws before any request; otherwise one update of the given table and values, filtered by the parsed condition |
| Conditions.Delete | Sources/RMSSimulation/SupabaseService.swift:199-209 | a malformed condition throws before any request; otherwise one delete on the given table, filtered by the parsed condition |
| Batch.Describe | Sources/RMSSimulation/SupabaseService.swift:411 | `localizedDescription` of a thrown error: a client error's own description, or a runtime error's `errorDescription` |
| Batch.ExecuteOperation | Sources/RMSSimulation/SupabaseService.swift:317-324 | success exactly when the operation returned, with its value. A failure's message is the thrown error's description. The chosen category's keywords occur in it, and no keyword of a category earlier in `from`'s order does |
| Batch.ServiceErrorRewrapped | Sources/RMSSimulation/SupabaseService.swift:317-324 | a runtime error passing through `executeOperation` is wrapped again, with its whole description as the message, and never moves down the priority order |
| Batch.ConditionErrorDescriptionIsPlain | Sources/RMSSimulation/SupabaseService.swift:400-401 | the description of the malformed-condition error contains none of the eight keywords |
| Batch.MalformedConditionComesBackUnknown | Sources/RMSSimulation/SupabaseService.swift:317-324 | the malformed-condition error of `update` and `delete`, run through `executeOperation`, comes back as `unknown` carrying its description |
| Batch.PickPermutation | Sources/RMSSimulation/SupabaseService.swift:327-340 | taking the same operations in a different order gives the same results, counted with multiplicity |
| Batch.ExecuteBatch | Sources/RMSSimulation/SupabaseService.swift:327-340 | one result per operation, each the `executeOperation` result of the operation that finished at that place; as a multiset they are exactly the results in input order |
| Batch.BatchMayReorder | Sources/RMSSimulation/SupabaseService.swift:335-338 | two operations finishing in reverse order come back reversed, which differs from input order |

## Left out

- SwiftUI views, app shells and layout are left out. This includes the secure-entry toggle and the transient `isLoading = true` while the sign-in call is pending. `PerformLogin` gives the form after the call.
- The Supabase SDK is left out: HTTP, tokens, the realtime transport, storage and query builders, and the OAuth launch flow. Each SDK call is a `Reply` parameter.
- Arguments that only travel to the SDK are left out of the services: the e-mail and password of sign-in and sign-up, sign-up's `metadata`, the `email` of `resetPassword`, the `newPassword` of `updatePassword`, the `metadata` of `updateUserMetadata`, and the `provider` and `redirectTo` of `signInWithOAuth`. None of them affects the state the model keeps.
- Concurrency is left out: `@MainActor`, `Task`, `withTaskGroup` and `await`. `executeBatch` takes the completion order of its tasks as a parameter, constrained to be a permutation of the operations.
- Storage operations are left out: `uploadFile`, `downloadFile`, `deleteFile` and `getPublicURL`. So are `query`, `insert` and `getCurrentSession`. Each forwards to the SDK without logic of its own.
- The Combine publishers `authStatePublisher` and `userPublisher` are left out. So are the messages a channel delivers and the `event` filter of a subscription. Only the list of channels and their topics is modelled.
- `performAsync` and `createAuthBinding` are left out. They are a callback wrapper around `executeOperation` and a read of `isAuthenticated`.
- The `.execute()` that sends the request of `update` and `delete` is left out. `Conditions.Update` and `Conditions.Delete` return the request they would send. An error that sending throws is not modelled.
- `MemoryAuthStorage` is left out. It is a key-value store the SDK uses for tokens.
- `setupAuthListener` is modelled only as the `AuthEventOp` call. `handleAuthStateChange` ignores the event kind it receives.
- The `print` diagnostics of `setupClient` are left out. Its `catch` branch is also left out, because the client constructor does not throw. `Setup` models only whether the URL parses.
- The force-unwrapped URL in the initialiser of `SupabaseService` (Sources/SupabaseService.swift:15) is left out. That crash is outside the model. The initialiser's status check is an ordinary `CheckAuth` call.
- Swift `Character`s are grapheme clusters, and `count` counts them. The model counts `char`s. Foundation's whitespace and newline sets are given as explicit lists of code points.
- `localizedDescription` of an error that is not a `SupabaseServiceError` is left out. It is the abstract `description` field of `BackendError`.

=== FILE: auth_client_service.dfy ===
/**
 * The UI-free authentication service (`SupabaseAuthService` in
 * Sources/SupabaseAuthService.swift): the same four calls as `AuthService`,
 * on a client that is absent when set-up could not parse the project URL.
 */
module AuthClientService {
  import opened Wrappers
  import opened Backend
  import A = AuthService

  /** The optional client, reduced to whether it exists, and the two published fields. */
  datatype Service = Service(hasClient: bool, state: A.AuthState)

  /** A service after a call, and the `(success, error)` tuple the call returned. */
  datatype Answer = Answer(service: Service, result: A.CallResult)

  const NotInitialized: string := "Authentication service not initialized"

  /** `init` / `setupClient`: a client exists exactly when the configured URL parses. */
  function Setup(urlParses: bool): (svc: Service)
    ensures svc.hasClient <==> urlParses
    ensures svc.state == A.Initial
  {
    Service(urlParses, A.AuthState(false, None))
  }

  /** `checkAuthStatus`: without a client, nothing happens; with one, adopt or drop the session. */
  function CheckAuthStatus(svc: Service, reply: Reply<Session>): (after: Service)
    ensures after.hasClient == svc.hasClient
    ensures !svc.hasClient ==> after == svc
    ensures svc.hasClient ==> A.Agrees(after.state)
    ensures svc.hasClient ==> (after.state.isAuthenticated <==> reply.Returned?)
    ensures svc.hasClient && reply.Returned? ==> after.state.currentUser == Some(reply.value.user)
  {
    if !svc.hasClient then svc
    else
      match reply
      case Returned(session) => Service(true, A.AuthState(true, Some(session.user)))
      case Threw(_) => Service(true, A.AuthState(false, None))
  }

  /** `signIn`, guarded by the client check. */
  function SignIn(svc: Service, reply: Reply<Session>): (out: Answer)
    ensures A.Reported(out.result)
    ensures out.service.hasClient == svc.hasClient
    ensures !svc.hasClient ==> out == Answer(svc, A.Failed(NotInitialized))
    ensures out.result.success <==> svc.hasClient && reply.Returned?
    ensures out.result.success ==> out.service.state == A.AuthState(true, Some(reply.value.user))
    ensures !out.result.success ==> out.service == svc
  {
    if !svc.hasClient then Answer(svc, A.Failed(NotInitialized))
    else
      match reply
      case Returned(session) => Answer(Service(true, A.AuthState(true, Some(session.user))), A.Succeeded)
      case Threw(e) =>
        match e
        case AuthError(description) => Answer(svc, A.Failed(description))
        case OtherError(_) => Answer(svc, A.Failed(A.SignInUnexpected))
  }

  /** `signOut`, guarded by the client check. */
  function SignOut(svc: Service, reply: Reply<()>): (out: Answer)
    ensures A.Reported(out.result)
    ensures !svc.hasClient ==> out == Answer(svc, A.Failed(NotInitialized))
    ensures out.result.success <==> svc.hasClient && reply.Returned?
    ensures out.result.success ==> out.service == Service(true, A.Initial)
    ensures !out.result.success ==> out.service == svc
    ensures svc.hasClient && reply.Threw? ==> out.result.error == Some(A.SignOutFailed)
  {
    if !svc.hasClient then Answer(svc, A.Failed(NotInitialized))
    else if reply.Returned? then Answer(Service(true, A.AuthState(false, None)), A.Succeeded)
    else Answer(svc, A.Failed(A.SignOutFailed))
  }

  /**
   * `signUp`, guarded by the client check: any returned response succeeds and
   * is copied as it is, a missing user included.
   */
  function SignUp(svc: Service, reply: Reply<SignUpResponse>): (out: Answer)
    ensures A.Reported(out.result)
    ensures !svc.hasClient ==> out == Answer(svc, A.Failed(NotInitialized))
    ensures out.result.success <==> svc.hasClient && reply.Returned?
    ensures out.result.success ==>
      out.service == Service(true, A.AuthState(reply.value.session.Some?, reply.value.user))
    ensures !out.result.success ==> out.service == svc
  {
    if !svc.hasClient then Answer(svc, A.Failed(NotInitialized))
    else
      match reply
      case Returned(response) =>
        Answer(Service(true, A.AuthState(response.session != None, response.user)), A.Succeeded)
      case Threw(e) =>
        match e
        case AuthError(description) => Answer(svc, A.Failed(description))
        case OtherError(_) => Answer(svc, A.Failed(A.SignUpUnexpected))
  }

  /** Without a client every call fails the same way and changes nothing. */
  lemma {:induction false} NoClientNoEffect(svc: Service, c: A.Call)
    requires !svc.hasClient
    ensures Apply(svc, c) == svc
    ensures c.SignInCall? ==> SignIn(svc, c.session).result == A.Failed(NotInitialized)
    ensures c.SignOutCall? ==> SignOut(svc, c.done).result == A.Failed(NotInitialized)
    ensures c.SignUpCall? ==> SignUp(svc, c.response).result == A.Failed(NotInitialized)
  {
  }

  /**
   * With a client, sign-in, sign-out and the status check behave exactly as
   * in `AuthService`, and so does sign-up whenever the response has a user.
   */
  lemma SameAsAuthService(svc: Service, session: Reply<Session>, done: Reply<()>, response: Reply<SignUpResponse>)
    requires svc.hasClient
    ensures CheckAuthStatus(svc, session).state == A.CheckAuthStatus(session)
    ensures SignIn(svc, session) == Answer(Service(true, A.SignIn(svc.state, session).state), A.SignIn(svc.state, session).result)
    ensures SignOut(svc, done) == Answer(Service(true, A.SignOut(svc.state, done).state), A.SignOut(svc.state, done).result)
    ensures !(response.Returned? && response.value.user.None?) ==>
      SignUp(svc, response) == Answer(Service(true, A.SignUp(svc.state, response).state), A.SignUp(svc.state, response).result)
  {
  }

  /**
   * Where the two services part: a response without a user is a failure
   * asking for confirmation in `AuthService`, but a success that clears the
   * current user here.
   */
  lemma SignUpWithoutUserDiffers(svc: Service, session: Option<Session>)
    requires svc.hasClient
    ensures SignUp(svc, Returned(SignUpResponse(None, session))).result == A.Succeeded
    ensures SignUp(svc, Returned(SignUpResponse(None, session))).service.state.currentUser == None
    ensures A.SignUp(svc.state, Returned(SignUpResponse(None, session))).result == A.Failed(A.ConfirmEmail)
  {
  }

  /** The service after one call; the status check returns no tuple. */
  function Apply(svc: Service, c: A.Call): (after: Service)
    ensures after.hasClient == svc.hasClient
    ensures A.Consistent(svc.state) && (c.SignUpCall? && c.response.Returned? ==> WellFormed(c.response.value))
      ==> A.Consistent(after.state)
  {
    match c
    case CheckAuth(reply) => CheckAuthStatus(svc, reply)
    case SignInCall(reply) => SignIn(svc, reply).service
    case SignOutCall(reply) => SignOut(svc, reply).service
    case SignUpCall(reply) => SignUp(svc, reply).service
  }

  /** The service after a sequence of calls, in order. */
  function Run(svc: Service, calls: seq<A.Call>): Service
    decreases |calls|
  {
    if |calls| == 0 then svc else Run(Apply(svc, calls[0]), calls[1..])
  }

  /** Every sign-up response in `calls` that came back is well formed. */
  predicate WellFormedReplies(calls: seq<A.Call>) {
    forall i :: 0 <= i < |calls| && calls[i].SignUpCall? && calls[i].response.Returned? ==>
      WellFormed(calls[i].response.value)
  }

  /** As long as the client's sign-up responses are well formed, nobody is authenticated without a user. */
  lemma {:induction false} RunKeepsConsistent(svc: Service, calls: seq<A.Call>)
    requires A.Consistent(svc.state)
    requires WellFormedReplies(calls)
    ensures A.Consistent(Run(svc, calls).state)
    decreases |calls|
  {
    if |calls| > 0 {
      assert WellFormedReplies(calls[1..]) by {
        forall i | 0 <= i < |calls[1..]| && calls[1..][i].SignUpCall? && calls[1..][i].response.Returned?
          ensures WellFormed(calls[1..][i].response.value)
        {
          assert calls[1..][i] == calls[i + 1];
        }
      }
      RunKeepsConsistent(Apply(svc, calls[0]), calls[1..]);
    }
  }

  /**
   * A user is current but not authenticated after a sign-up awaiting
   * confirmation, so `currentUser != nil` does not imply `isAuthenticated`.
   */
  lemma SignUpAwaitingConfirmation(u: User)
    ensures Run(Setup(true), [A.SignUpCall(Returned(SignUpResponse(Some(u), None)))])
      == Service(true, A.AuthState(false, Some(u)))
  {
    var calls := [A.SignUpCall(Returned(SignUpResponse(Some(u), None)))];
    assert Run(Setup(true), calls) == Run(Apply(Setup(true), calls[0]), calls[1..]);
  }
}

=== FILE: auth_service.dfy ===
/**
 * The observable authentication service of the app (`SupabaseService` in
 * Sources/SupabaseService.swift): two published fields and four calls, each
 * of which reports `(success, error)` instead of throwing.
 */
module AuthService {
  import opened Wrappers
  import opened Backend

  /** The published fields `isAuthenticated` and `currentUser`. */
  datatype AuthState = AuthState(isAuthenticated: bool, currentUser: Option<User>)

  /** The fields' initial values. */
  const Initial: AuthState := AuthState(false, None)

  /** The `(success, error)` tuple a call returns. */
  datatype CallResult = CallResult(success: bool, error: Option<string>)

  /** A state and the tuple the call returned on the way to it. */
  datatype Transition = Transition(state: AuthState, result: CallResult)

  const SignInUnexpected: string := "An unexpected error occurred during sign in"
  const SignUpUnexpected: string := "An unexpected error occurred during sign up"
  const SignOutFailed: string := "Failed to sign out"
  const ConfirmEmail: string := "Sign up successful, please check your email for verification"

  /** A tuple is well formed when it carries an error message exactly when it reports failure. */
  predicate Reported(result: CallResult) {
    result.success <==> result.error.None?
  }

  /** Whoever is authenticated has a user. */
  predicate Consistent(s: AuthState) {
    s.isAuthenticated ==> s.currentUser.Some?
  }

  /** The stronger reading: there is a user exactly when someone is authenticated. */
  predicate Agrees(s: AuthState) {
    s.isAuthenticated <==> s.currentUser.Some?
  }

  const Succeeded: CallResult := CallResult(true, None)

  function Failed(message: string): CallResult {
    CallResult(false, Some(message))
  }

  /** The message for a thrown error: an `AuthError`'s own description, otherwise the call's fixed text. */
  function Explain(e: BackendError, fallback: string): string {
    match e
    case AuthError(description) => description
    case OtherError(_) => fallback
  }

  /** `checkAuthStatus`: adopt the stored session's user, or sign out locally when there is none. */
  function CheckAuthStatus(reply: Reply<Session>): (s: AuthState)
    ensures Agrees(s)
    ensures s.isAuthenticated <==> reply.Returned?
    ensures reply.Returned? ==> s.currentUser == Some(reply.value.user)
  {
    match reply
    case Returned(session) => AuthState(true, Some(session.user))
    case Threw(_) => AuthState(false, None)
  }

  /** `signIn`: a returned session authenticates its user; a thrown error changes nothing. */
  function SignIn(s: AuthState, reply: Reply<Session>): (t: Transition)
    ensures Reported(t.result)
    ensures t.result.success <==> reply.Returned?
    ensures t.result.success ==> t.state == AuthState(true, Some(reply.value.user))
    ensures !t.result.success ==> t.state == s
    ensures reply.Threw? ==> t.result.error == Some(Explain(reply.error, SignInUnexpected))
  {
    match reply
    case Returned(session) => Transition(AuthState(true, Some(session.user)), Succeeded)
    case Threw(e) =>
      match e
      case AuthError(description) => Transition(s, Failed(description))
      case OtherError(_) => Transition(s, Failed(SignInUnexpected))
  }

  /** `signOut`: a completed remote sign-out resets both fields; a failed one changes nothing. */
  function SignOut(s: AuthState, reply: Reply<()>): (t: Transition)
    ensures Reported(t.result)
    ensures t.result.success <==> reply.Returned?
    ensures t.result.success ==> t.state == Initial
    ensures !t.result.success ==> t.state == s && t.result.error == Some(SignOutFailed)
  {
    if reply.Returned? then Transition(AuthState(false, None), Succeeded)
    else Transition(s, Failed(SignOutFailed))
  }

  /**
   * `signUp`: a response with a user makes it current and authenticates it
   * only when a session came along; a response without a user is reported as
   * a failure asking for e-mail confirmation.
   */
  function SignUp(s: AuthState, reply: Reply<SignUpResponse>): (t: Transition)
    ensures Reported(t.result)
    ensures t.result.success <==> reply.Returned? && reply.value.user.Some?
    ensures t.result.success ==>
      t.state == AuthState(reply.value.session.Some?, reply.value.user)
    ensures !t.result.success ==> t.state == s
    ensures reply.Returned? && reply.value.user.None? ==> t.result.error == Some(ConfirmEmail)
    ensures reply.Threw? ==> t.result.error == Some(Explain(reply.error, SignUpUnexpected))
  {
    match reply
    case Returned(response) =>
      if response.user.Some? then
        Transition(AuthState(response.session.Some?, Some(response.user.value)), Succeeded)
      else
        Transition(s, Failed(ConfirmEmail))
    case Threw(e) =>
      match e
      case AuthError(description) => Transition(s, Failed(description))
      case OtherError(_) => Transition(s, Failed(SignUpUnexpected))
  }

  /** One call to the service, with the reply its remote call got. */
  datatype Call =
    | CheckAuth(session: Reply<Session>)
    | SignInCall(session: Reply<Session>)
    | SignOutCall(done: Reply<()>)
    | SignUpCall(response: Reply<SignUpResponse>)

  /** The state after one call. */
  function Apply(s: AuthState, c: Call): (t: AuthState)
    ensures Consistent(s) ==> Consistent(t)
    ensures !c.SignUpCall? && Agrees(s) ==> Agrees(t)
  {
    match c
    case CheckAuth(reply) => CheckAuthStatus(reply)
    case SignInCall(reply) => SignIn(s, reply).state
    case SignOutCall(reply) => SignOut(s, reply).state
    case SignUpCall(reply) => SignUp(s, reply).state
  }

  /** The state after a sequence of calls, in order. */
  function Run(s: AuthState, calls: seq<Call>): AuthState
    decreases |calls|
  {
    if |calls| == 0 then s else Run(Apply(s, calls[0]), calls[1..])
  }

  /** No sequence of calls from the initial state authenticates without a user. */
  lemma {:induction false} RunKeepsConsistent(s: AuthState, calls: seq<Call>)
    requires Consistent(s)
    ensures Consistent(Run(s, calls))
    decreases |calls|
  {
    if |calls| > 0 {
      RunKeepsConsistent(Apply(s, calls[0]), calls[1..]);
    }
  }

  /** Without sign-ups, a user is current exactly when someone is authenticated. */
  lemma {:induction false} RunWithoutSignUpAgrees(s: AuthState, calls: seq<Call>)
    requires Agrees(s)
    requires forall i :: 0 <= i < |calls| ==> !calls[i].SignUpCall?
    ensures Agrees(Run(s, calls))
    decreases |calls|
  {
    if |calls| > 0 {
      RunWithoutSignUpAgrees(Apply(s, calls[0]), calls[1..]);
    }
  }

  /**
   * The stronger reading does not hold: a sign-up awaiting e-mail
   * confirmation leaves a current user who is not authenticated.
   */
  lemma SignUpAwaitingConfirmation(u: User)
    ensures Run(Initial, [SignUpCall(Returned(SignUpResponse(Some(u), None)))])
      == AuthState(false, Some(u))
    ensures !Agrees(Run(Initial, [SignUpCall(Returned(SignUpResponse(Some(u), None)))]))
  {
    var calls := [SignUpCall(Returned(SignUpResponse(Some(u), None)))];
    assert Run(Initial, calls) == Run(Apply(Initial, calls[0]), calls[1..]);
  }
}

=== FILE: backend.dfy ===
/**
 * What the Supabase client hands back to the services, reduced to the parts
 * the services look at. Every remote call is an abstract `Reply`: either the
 * value it returned or the error it threw.
 */
module Backend {
  import opened Wrappers

  datatype User = User(id: string, email: string)

  datatype Session = Session(accessToken: string, refreshToken: string, user: User)

  /**
   * An error thrown by the client: an `AuthError`, which the tuple-returning
   * services report by its description, or any other error.
   */
  datatype BackendError =
    | AuthError(description: string)
    | OtherError(description: string)

  /** The outcome of one remote call. */
  datatype Reply<+T> = Returned(value: T) | Threw(error: BackendError)

  /**
   * The reply of `auth.signUp`: a user, which may be absent, and a session,
   * which is absent while e-mail confirmation is pending.
   */
  datatype SignUpResponse = SignUpResponse(user: Option<User>, session: Option<Session>)

  /** A response whose session, when there is one, belongs to its user. */
  predicate WellFormed(response: SignUpResponse) {
    response.session.Some? ==> response.user == Some(response.session.value.user)
  }
}

=== FILE: batch.dfy ===
/**
 * `executeOperation` and `executeBatch` of the session runtime
 * (Sources/RMSSimulation/SupabaseService.swift): every thrown error is
 * re-classified from its description, and a batch gathers its results in
 * the order the concurrent tasks finish.
 */
module Batch {
  import opened Wrappers
  import opened Backend
  import opened ServiceErrors
  import Conditions

  /** An error an operation may throw: one from the client, or one of the runtime's own. */
  datatype Thrown = FromClient(clientError: BackendError) | FromService(serviceError: ServiceError)

  /** `localizedDescription`: a runtime error describes itself by its `errorDescription`. */
  function Describe(t: Thrown): string {
    match t
    case FromClient(e) => e.description
    case FromService(e) => ErrorDescription(e)
  }

  /** How one operation ended. */
  datatype Attempt<T> = Completed(value: T) | Failed(thrown: Thrown)

  /** `executeOperation`: a value succeeds as it is; an error is classified by its description. */
  function ExecuteOperation<T>(a: Attempt<T>): (r: Result<T, ServiceError>)
    ensures r.Success? <==> a.Completed?
    ensures a.Completed? ==> r.value == a.value
    ensures a.Failed? ==> r.error.message == Describe(a.thrown)
    ensures a.Failed? && Rank(r.error) < |CategoryKeywords| ==> Mentions(Describe(a.thrown), Rank(r.error))
    ensures a.Failed? ==> forall rank :: 0 <= rank < Rank(r.error) ==> !Mentions(Describe(a.thrown), rank)
  {
    match a
    case Completed(v) => Success(v)
    case Failed(t) => Failure(From(Describe(t)))
  }

  /**
   * A runtime error that passes through `executeOperation` is wrapped again:
   * its message becomes its whole description, and its category can only
   * move up the priority order.
   */
  lemma ServiceErrorRewrapped<T>(e: ServiceError)
    ensures ExecuteOperation<T>(Failed(FromService(e))).error.message == ErrorDescription(e)
    ensures Rank(ExecuteOperation<T>(Failed(FromService(e))).error) <= Rank(From(e.message))
  {
    ReclassifyDescription(e);
  }

  // The words of the description of a malformed-condition error, each shown keyword-free.

  lemma DatabaseWordIsPlain(w: string)
    requires w == "Database"
    ensures MentionsNoKeyword(w)
  {
    NoKeywordByMissingChars(w, 'h', 'l', 'n', 'c', 'd', 'l', 'o', 'u');
  }

  lemma ErrorWordIsPlain(w: string)
    requires w == "error:"
    ensures MentionsNoKeyword(w)
  {
    NoKeywordByMissingChars(w, 'a', 'l', 'n', 'c', 'd', 't', 's', 'b');
  }

  lemma InvalidWordIsPlain(w: string)
    requires w == "Invalid"
    ensures MentionsNoKeyword(w)
  {
    NoKeywordByMissingChars(w, 'u', 'o', 'e', 'c', 't', 't', 's', 'b');
  }

  lemma ConditionWordIsPlain(w: string)
    requires w == "condition"
    ensures MentionsNoKeyword(w)
  {
    NoKeywordByMissingChars(w, 'a', 'l', 'e', 'e', 'a', 'a', 's', 'b');
  }

  lemma FormatWordIsPlain(w: string)
    requires w == "format."
    ensures MentionsNoKeyword(w)
  {
    NoKeywordByMissingChars(w, 'u', 'l', 'n', 'c', 'd', 'b', 's', 'b');
  }

  lemma UseWordIsPlain(w: string)
    requires w == "Use"
    ensures MentionsNoKeyword(w)
  {
    NoKeywordByMissingChars(w, 'a', 'l', 'n', 'c', 'd', 't', 't', 'b');
  }

  lemma PatternWordIsPlain(w: string)
    requires w == "'column=value'"
    ensures MentionsNoKeyword(w)
  {
    NoKeywordByMissingChars(w, 'h', 'g', 't', 't', 'd', 't', 's', 'b');
  }

  /** Words free of keywords, joined by single spaces, stay free of keywords. */
  lemma SpacedWordsArePlain(w1: string, w2: string, w3: string, w4: string, w5: string)
    requires MentionsNoKeyword(w1) && MentionsNoKeyword(w2) && MentionsNoKeyword(w3)
    requires MentionsNoKeyword(w4) && MentionsNoKeyword(w5)
    ensures MentionsNoKeyword(w1 + " " + w2 + " " + w3 + " " + w4 + " " + w5)
  {
    SpaceJoinMentionsNoKeyword(w1, w2);
    SpaceJoinMentionsNoKeyword(w1 + " " + w2, w3);
    SpaceJoinMentionsNoKeyword(w1 + " " + w2 + " " + w3, w4);
    SpaceJoinMentionsNoKeyword(w1 + " " + w2 + " " + w3 + " " + w4, w5);
  }

  /** The malformed-condition message names no category. */
  lemma ConditionFormatIsPlain(m: string)
    requires m == Conditions.ConditionFormat
    ensures MentionsNoKeyword(m)
  {
    var w1, w2, w3, w4, w5 := "Invalid", "condition", "format.", "Use", "'column=value'";
    assert m == w1 + " " + w2 + " " + w3 + " " + w4 + " " + w5;
    InvalidWordIsPlain(w1);
    ConditionWordIsPlain(w2);
    FormatWordIsPlain(w3);
    UseWordIsPlain(w4);
    PatternWordIsPlain(w5);
    SpacedWordsArePlain(w1, w2, w3, w4, w5);
  }

  /** The label of a database error, with its colon, names no category either: `Database` is capitalised. */
  lemma DatabaseLabelIsPlain(h: string)
    requires h == "Database error:"
    ensures MentionsNoKeyword(h)
  {
    var w1, w2 := "Database", "error:";
    assert h == w1 + " " + w2;
    DatabaseWordIsPlain(w1);
    ErrorWordIsPlain(w2);
    SpaceJoinMentionsNoKeyword(w1, w2);
  }

  /** The description of a malformed-condition error holds none of the keywords. */
  lemma ConditionErrorDescriptionIsPlain(d: string)
    requires d == ErrorDescription(DatabaseError(Conditions.ConditionFormat))
    ensures MentionsNoKeyword(d)
  {
    var h, m := "Database error:", Conditions.ConditionFormat;
    assert d == h + " " + m;
    DatabaseLabelIsPlain(h);
    ConditionFormatIsPlain(m);
    SpaceJoinMentionsNoKeyword(h, m);
  }

  /**
   * An `update` or `delete` with a malformed condition, run through
   * `executeOperation`, fails as `unknown`, not as a database error: the
   * classifier looks for the lower-case keyword `database`.
   */
  lemma MalformedConditionComesBackUnknown<T>()
    ensures ExecuteOperation<T>(Failed(FromService(DatabaseError(Conditions.ConditionFormat))))
      == Failure(Unknown(ErrorDescription(DatabaseError(Conditions.ConditionFormat))))
  {
    ConditionErrorDescriptionIsPlain(ErrorDescription(DatabaseError(Conditions.ConditionFormat)));
    NoKeywordIsUnknown(ErrorDescription(DatabaseError(Conditions.ConditionFormat)));
  }

  /** The results listed in input order: the reference `executeBatch` is compared with. */
  function InputOrder<T>(ops: seq<Attempt<T>>): (rs: seq<Result<T, ServiceError>>)
    ensures |rs| == |ops|
    ensures forall i :: 0 <= i < |ops| ==> rs[i] == ExecuteOperation(ops[i])
  {
    seq(|ops|, i requires 0 <= i < |ops| => ExecuteOperation(ops[i]))
  }

  /** The indices `0, 1, ..., n - 1`. */
  function Indices(n: nat): (ix: seq<nat>)
    ensures |ix| == n
    ensures forall i :: 0 <= i < n ==> ix[i] == i
  {
    seq(n, i requires 0 <= i => i)
  }

  /** Every index in `idx` names one of the operations. */
  predicate InRange<T>(ops: seq<Attempt<T>>, idx: seq<nat>) {
    forall k :: 0 <= k < |idx| ==> idx[k] < |ops|
  }

  /** The results of the operations at the given indices, in that order. */
  function Pick<T>(ops: seq<Attempt<T>>, idx: seq<nat>): (rs: seq<Result<T, ServiceError>>)
    requires InRange(ops, idx)
    ensures |rs| == |idx|
    ensures forall k :: 0 <= k < |idx| ==> rs[k] == ExecuteOperation(ops[idx[k]])
    decreases |idx|
  {
    if |idx| == 0 then [] else [ExecuteOperation(ops[idx[0]])] + Pick(ops, idx[1..])
  }

  lemma PickAppend<T>(ops: seq<Attempt<T>>, a: seq<nat>, b: seq<nat>)
    requires InRange(ops, a) && InRange(ops, b)
    ensures InRange(ops, a + b)
    ensures Pick(ops, a + b) == Pick(ops, a) + Pick(ops, b)
  {
  }

  /** Taking the same element out of two equal multisets leaves equal multisets. */
  lemma RemoveMatching(a: seq<nat>, b: seq<nat>, j: nat)
    requires |a| > 0 && j < |b| && b[j] == a[0]
    requires multiset(a) == multiset(b)
    ensures multiset(a[1..]) == multiset(b[..j] + b[j + 1..])
  {
    assert a == [a[0]] + a[1..];
    assert b == b[..j] + [b[j]] + b[j + 1..];
    calc {
      multiset(a[1..]);
      multiset(a) - multiset{a[0]};
      multiset(b) - multiset{b[j]};
      multiset(b[..j]) + multiset(b[j + 1..]);
      multiset(b[..j] + b[j + 1..]);
    }
  }

  /** The results of `b` are those of `b` without its `j`-th index, plus that index's result. */
  lemma PickWithout<T>(ops: seq<Attempt<T>>, b: seq<nat>, j: nat)
    requires InRange(ops, b) && j < |b|
    ensures InRange(ops, b[..j] + b[j + 1..])
    ensures multiset(Pick(ops, b))
      == multiset(Pick(ops, b[..j] + b[j + 1..])) + multiset{ExecuteOperation(ops[b[j]])}
  {
    assert b == b[..j] + [b[j]] + b[j + 1..];
    PickAppend(ops, b[..j], [b[j]]);
    PickAppend(ops, b[..j] + [b[j]], b[j + 1..]);
    PickAppend(ops, b[..j], b[j + 1..]);
  }

  /** Putting one index in front of two lists with the same results keeps their results equal. */
  lemma PickConsMatching<T>(ops: seq<Attempt<T>>, a: seq<nat>, b: seq<nat>, j: nat)
    requires InRange(ops, a) && InRange(ops, b)
    requires |a| > 0 && j < |b| && b[j] == a[0]
    requires InRange(ops, b[..j] + b[j + 1..])
    requires multiset(Pick(ops, a[1..])) == multiset(Pick(ops, b[..j] + b[j + 1..]))
    ensures multiset(Pick(ops, a)) == multiset(Pick(ops, b))
  {
    var x := ExecuteOperation(ops[a[0]]);
    PickWithout(ops, b, j);
    assert multiset(Pick(ops, b)) == multiset(Pick(ops, b[..j] + b[j + 1..])) + multiset{x};
    assert Pick(ops, a) == [x] + Pick(ops, a[1..]);
    assert multiset(Pick(ops, a)) == multiset{x} + multiset(Pick(ops, a[1..]));
  }

  /** Picking the same indices in another order gives the same results, counted with multiplicity. */
  lemma {:induction false} PickPermutation<T>(ops: seq<Attempt<T>>, a: seq<nat>, b: seq<nat>)
    requires InRange(ops, a) && InRange(ops, b)
    requires multiset(a) == multiset(b)
    ensures multiset(Pick(ops, a)) == multiset(Pick(ops, b))
    decreases |a|
  {
    if |a| == 0 {
      assert |b| == |multiset(b)| == 0;
    } else {
      assert a[0] in multiset(b);
      var j :| 0 <= j < |b| && b[j] == a[0];
      var rest := b[..j] + b[j + 1..];
      RemoveMatching(a, b, j);
      PickWithout(ops, b, j);
      PickPermutation(ops, a[1..], rest);
      PickConsMatching(ops, a, b, j);
    }
  }

  /** A completion order: each operation finishes exactly once. */
  predicate IsCompletionOrder(order: seq<nat>, n: nat) {
    multiset(order) == multiset(Indices(n))
  }

  lemma CompletionOrderInRange<T>(ops: seq<Attempt<T>>, order: seq<nat>)
    requires IsCompletionOrder(order, |ops|)
    ensures |order| == |ops|
    ensures InRange(ops, order)
  {
    assert |order| == |multiset(order)| == |multiset(Indices(|ops|))| == |ops|;
    forall k | 0 <= k < |order|
      ensures order[k] < |ops|
    {
      assert order[k] in multiset(Indices(|ops|));
    }
  }

  /**
   * `executeBatch`, with the completion order of its tasks as a parameter:
   * one result per operation, listed as the operations finish, so the same
   * results as in input order but not necessarily in that order.
   */
  method ExecuteBatch<T>(ops: seq<Attempt<T>>, order: seq<nat>) returns (results: seq<Result<T, ServiceError>>)
    requires IsCompletionOrder(order, |ops|)
    ensures |results| == |order| == |ops|
    ensures forall k :: 0 <= k < |results| ==> order[k] < |ops| && results[k] == ExecuteOperation(ops[order[k]])
    ensures multiset(results) == multiset(InputOrder(ops))
  {
    CompletionOrderInRange(ops, order);
    results := [];
    var i := 0;
    while i < |order|
      invariant 0 <= i <= |order|
      invariant |results| == i
      invariant forall k :: 0 <= k < i ==> results[k] == ExecuteOperation(ops[order[k]])
    {
      results := results + [ExecuteOperation(ops[order[i]])];
      i := i + 1;
    }
    assert results == Pick(ops, order);
    PickPermutation(ops, order, Indices(|ops|));
    assert Pick(ops, Indices(|ops|)) == InputOrder(ops);
  }

  /** Completion order is not input order: two operations finishing in reverse come back reversed. */
  lemma BatchMayReorder(first: int, second: int)
    requires first != second
    ensures Pick([Completed(first), Completed(second)], [1, 0])
      == [Success(second), Success(first)]
    ensures Pick([Completed(first), Completed(second)], [1, 0])
      != InputOrder([Completed(first), Completed(second)])
    ensures IsCompletionOrder([1, 0], 2)
  {
    var ops := [Completed(first), Completed(second)];
    assert Pick(ops, [1, 0])[0] == Success(second);
    assert InputOrder(ops)[0] == Success(first);
    assert Indices(2) == [0, 1];
  }
}

=== FILE: conditions.dfy ===
/**
 * The `column=value` filter that `update` and `delete` of the session
 * runtime accept (Sources/RMSSimulation/SupabaseService.swift), and the
 * request each of them sends once the filter parses.
 */
module Conditions {
  import opened Wrappers
  import opened Strings
  import opened ServiceErrors

  const ConditionFormat: string := "Invalid condition format. Use 'column=value'"

  /** An equality filter `column = value`. */
  datatype Filter = Filter(column: string, value: string)

  /** The request sent to a table: an update with its values, or a delete. */
  datatype Request<V> =
    | UpdateRows(table: string, values: V, filter: Filter)
    | DeleteRows(table: string, filter: Filter)

  /** The text a filter is written as. */
  function FormatCondition(f: Filter): string {
    f.column + "=" + f.value
  }

  /**
   * Split on `=`; exactly two parts make a filter of the two parts with
   * spaces and tabs trimmed, anything else is a database error.
   */
  function ParseCondition(condition: string): (r: Result<Filter, ServiceError>)
    ensures r.Success? <==> Occurrences(condition, '=') == 1
    ensures r.Failure? ==> r.error == DatabaseError(ConditionFormat)
  {
    var parts := Split(condition, '=');
    if |parts| != 2 then Failure(DatabaseError(ConditionFormat))
    else Success(Filter(Trim(parts[0], Whitespaces), Trim(parts[1], Whitespaces)))
  }

  /**
   * A parsed filter comes from a condition `column = value` with the one
   * `=` between them and only spaces and tabs added around each side.
   */
  lemma ParsedFilterShape(condition: string) returns (column: string, value: string)
    requires ParseCondition(condition).Success?
    ensures condition == column + "=" + value
    ensures '=' !in column && '=' !in value
    ensures ParseCondition(condition).value == Filter(Trim(column, Whitespaces), Trim(value, Whitespaces))
  {
    var parts := Split(condition, '=');
    SplitInTwo(condition, '=');
    column, value := parts[0], parts[1];
  }

  /** Parsing inverts formatting for filters whose sides hold no `=` and are already trimmed. */
  lemma {:induction false} ParseFormat(f: Filter)
    requires '=' !in f.column && '=' !in f.value
    requires IsTrimmed(f.column, Whitespaces) && IsTrimmed(f.value, Whitespaces)
    ensures ParseCondition(FormatCondition(f)) == Success(f)
  {
    SplitJoin([f.column, f.value], '=');
    assert Join([f.column, f.value], '=') == FormatCondition(f);
    TrimFixedIff(f.column, Whitespaces);
    TrimFixedIff(f.value, Whitespaces);
  }

  /** A parsed filter, written back out, parses to itself. */
  lemma {:induction false} FormatParse(condition: string)
    requires ParseCondition(condition).Success?
    ensures ParseCondition(FormatCondition(ParseCondition(condition).value)) == ParseCondition(condition)
  {
    var column, value := ParsedFilterShape(condition);
    var f := ParseCondition(condition).value;
    TrimIdempotent(column, Whitespaces);
    TrimIdempotent(value, Whitespaces);
    TrimFixedIff(f.column, Whitespaces);
    TrimFixedIff(f.value, Whitespaces);
    if '=' in f.column {
      TrimKeepsCharacters(column, Whitespaces, '=');
    }
    if '=' in f.value {
      TrimKeepsCharacters(value, Whitespaces, '=');
    }
    ParseFormat(f);
  }

  /** `update`: a malformed condition throws before any request is sent. */
  function Update<V>(values: V, table: string, condition: string): (r: Result<Request<V>, ServiceError>)
    ensures r.Success? <==> Occurrences(condition, '=') == 1
    ensures r.Failure? ==> r.error == DatabaseError(ConditionFormat)
    ensures r.Success? ==>
      r.value.UpdateRows? && r.value.table == table && r.value.values == values
      && Success(r.value.filter) == ParseCondition(condition)
  {
    match ParseCondition(condition)
    case Success(f) => Success(UpdateRows(table, values, f))
    case Failure(e) => Failure(e)
  }

  /** `delete`: a malformed condition throws before any request is sent. */
  function Delete<V>(table: string, condition: string): (r: Result<Request<V>, ServiceError>)
    ensures r.Success? <==> Occurrences(condition, '=') == 1
    ensures r.Failure? ==> r.error == DatabaseError(ConditionFormat)
    ensures r.Success? ==>
      r.value.DeleteRows? && r.value.table == table
      && Success(r.value.filter) == ParseCondition(condition)
  {
    match ParseCondition(condition)
    case Success(f) => Success(DeleteRows(table, f))
    case Failure(e) => Failure(e)
  }

  /** A condition with no `=`, the empty one included, or with two or more, is rejected. */
  lemma MalformedConditions(column: string, value: string, rest: string)
    ensures '=' !in column ==> ParseCondition(column).Failure?
    ensures ParseCondition(column + "=" + value + "=" + rest).Failure?
  {
    OccurrencesAppend(column, "=", '=');
    OccurrencesAppend(column + "=", value, '=');
    OccurrencesAppend(column + "=" + value, "=", '=');
    OccurrencesAppend(column + "=" + value + "=", rest, '=');
    assert Occurrences("=", '=') == 1;
  }
}

=== FILE: login_screen.dfy ===
/**
 * The login screen (Sources/LoginView.swift): the `isFormValid` gate on the
 * button and the guard chain of `performLogin`, which either shows an error
 * or makes exactly one sign-in call and reacts to its tuple.
 */
module LoginScreen {
  import opened Wrappers
  import opened Strings
  import opened Validation
  import A = AuthService
  import opened Backend

  /** The screen's form fields and UI state. */
  datatype LoginForm = LoginForm(
    email: string,
    password: string,
    isLoading: bool,
    showError: bool,
    errorMessage: string)

  datatype Credentials = Credentials(email: string, password: string)

  /** The form after `performLogin`, and the credentials it signed in with, if it got that far. */
  datatype LoginStep = LoginStep(form: LoginForm, signIn: Option<Credentials>)

  const FormIncomplete: string := "Please fill in all fields with valid information"
  const EmailInvalid: string := "Please enter a valid email address"
  const PasswordTooShort: string := "Password must be at least 6 characters long"
  const LoginFailed: string := "Login failed. Please try again."

  /** `isFormValid`: both fields filled, an `@` and a `.` somewhere in the e-mail, six characters of password. */
  predicate IsFormValid(email: string, password: string) {
    && |email| > 0
    && |password| > 0
    && Contains(email, "@")
    && Contains(email, ".")
    && |password| >= 6
  }

  /** A valid e-mail contains both characters the form gate looks for. */
  lemma ValidEmailHasAtAndDot(email: string)
    requires IsValidEmail(email)
    ensures Contains(email, "@") && Contains(email, ".")
  {
    var t := Trim(email, WhitespacesAndNewlines);
    var at := ValidEmailHasShape(email);
    assert t[at] == '@';
    TrimKeepsCharacters(email, WhitespacesAndNewlines, '@');
    var dot :| 0 <= dot < |t[at + 1..]| && t[at + 1..][dot] == '.';
    assert t[at + 1 + dot] == '.';
    TrimKeepsCharacters(email, WhitespacesAndNewlines, '.');
    ContainsChar(email, '@');
    ContainsChar(email, '.');
  }

  /** What `ValidationUtils` accepts also passes the login button's gate. */
  lemma LoginFormPassesGate(email: string, password: string)
    requires IsValidLoginForm(email, password)
    ensures IsFormValid(email, password)
  {
    ValidEmailHasAtAndDot(email);
  }

  /** `a.b@c` has an `@` and a `.`, so with a long enough password it passes the gate. */
  lemma GateAcceptsDotBeforeAt(email: string, password: string)
    requires email == "a.b@c" && |password| >= MinPasswordLength
    ensures IsFormValid(email, password)
  {
    assert email[3] == '@' && email[1] == '.';
    ContainsChar(email, '@');
    ContainsChar(email, '.');
  }

  /** The gate is strictly weaker: `a.b@c` passes it but not the e-mail check, whose domain needs a dot. */
  lemma GateAcceptsInvalidEmail(email: string, password: string)
    requires email == "a.b@c" && |password| >= MinPasswordLength
    ensures IsFormValid(email, password)
    ensures !IsValidEmail(email)
  {
    GateAcceptsDotBeforeAt(email, password);
    assert email == "a.b" + "@" + "c";
    RejectedAddress("a.b", "c", email);
  }

  /** The message of the first `performLogin` guard that fails, if any. */
  function Guard(f: LoginForm): (g: Option<string>)
    ensures g.None? <==> IsValidLoginForm(f.email, f.password)
    ensures g != Some(PasswordTooShort)
    ensures !IsFormValid(f.email, f.password) ==> g == Some(FormIncomplete)
    ensures IsFormValid(f.email, f.password) && !IsValidEmail(f.email) ==> g == Some(EmailInvalid)
  {
    LoginFormIsConjunction(f.email, f.password);
    if IsValidLoginForm(f.email, f.password) then LoginFormPassesGate(f.email, f.password); None
    else if !IsFormValid(f.email, f.password) then Some(FormIncomplete)
    else if !IsValidEmail(f.email) then Some(EmailInvalid)
    else if |f.password| < MinPasswordLength then Some(PasswordTooShort)
    else None
  }

  /** `showErrorMessage`. */
  function ShowError(f: LoginForm, message: string): (g: LoginForm)
    ensures g.showError && g.errorMessage == message
    ensures g.(errorMessage := f.errorMessage, showError := f.showError) == f
  {
    f.(errorMessage := message, showError := true)
  }

  /**
   * `performLogin`, given the tuple the sign-in call would return: a failed
   * guard shows its message and makes no call; otherwise the call is made
   * with the form's own fields, a success clears them and a failure shows
   * the service's message, or a generic one when it sent none.
   */
  function PerformLogin(f: LoginForm, reply: A.CallResult): (step: LoginStep)
    ensures step.signIn.Some? <==> IsValidLoginForm(f.email, f.password)
    ensures step.signIn.Some? ==> step.signIn.value == Credentials(f.email, f.password) && !step.form.isLoading
    ensures step.signIn.None? ==>
      && step.form.showError
      && (step.form.errorMessage == FormIncomplete || step.form.errorMessage == EmailInvalid)
      && step.form.(showError := f.showError, errorMessage := f.errorMessage) == f
    ensures !IsFormValid(f.email, f.password) ==> step.form.errorMessage == FormIncomplete
    ensures IsFormValid(f.email, f.password) && !IsValidEmail(f.email) ==> step.form.errorMessage == EmailInvalid
    ensures step.signIn.Some? && reply.success ==>
      step.form == f.(email := [], password := [], isLoading := false)
    ensures step.signIn.Some? && !reply.success ==>
      && step.form.showError
      && step.form.errorMessage == (if reply.error.Some? then reply.error.value else LoginFailed)
      && step.form.email == f.email && step.form.password == f.password
  {
    match Guard(f)
    case Some(message) => LoginStep(ShowError(f, message), None)
    case None =>
      var called := Some(Credentials(f.email, f.password));
      var done := f.(isLoading := false);
      if reply.success then
        LoginStep(done.(email := "", password := ""), called)
      else
        LoginStep(ShowError(done, if reply.error.Some? then reply.error.value else LoginFailed), called)
  }

  /**
   * Logging in through `AuthService`: a returned session authenticates its
   * user and clears the form, and a thrown error is always shown with the
   * service's own message, never the generic fallback.
   */
  lemma LoginThroughService(f: LoginForm, s: A.AuthState, reply: Reply<Session>)
    requires IsValidLoginForm(f.email, f.password)
    ensures var t := A.SignIn(s, reply);
      reply.Returned? ==>
        t.state.isAuthenticated && PerformLogin(f, t.result).form.email == []
    ensures var t := A.SignIn(s, reply);
      reply.Threw? ==>
        t.state == s
        && PerformLogin(f, t.result).form.errorMessage == A.Explain(reply.error, A.SignInUnexpected)
  {
  }
}

=== FILE: service_errors.dfy ===
/**
 * `SupabaseServiceError`: the closed error taxonomy of the session runtime,
 * its `errorDescription` text, and `from`, the keyword classifier that maps
 * any error's description onto the taxonomy.
 */
module ServiceErrors {
  import opened Strings

  datatype ServiceError =
    | AuthenticationFailed(message: string)
    | NetworkError(message: string)
    | DatabaseError(message: string)
    | StorageError(message: string)
    | Unknown(message: string)

  /** Priority of a variant in `from`: the keyword category that selects it, or 4 for `unknown`. */
  function Rank(e: ServiceError): nat {
    match e
    case AuthenticationFailed(_) => 0
    case NetworkError(_) => 1
    case DatabaseError(_) => 2
    case StorageError(_) => 3
    case Unknown(_) => 4
  }

  /** The two case-sensitive keywords of each category, in priority order. */
  const CategoryKeywords: seq<(string, string)> := [
    ("auth", "login"),
    ("network", "connection"),
    ("database", "table"),
    ("storage", "bucket")
  ]

  /** `s` holds one of the keywords of category `rank`. */
  predicate Mentions(s: string, rank: nat)
    requires rank < |CategoryKeywords|
  {
    Contains(s, CategoryKeywords[rank].0) || Contains(s, CategoryKeywords[rank].1)
  }

  /** `s` holds none of the eight keywords. */
  predicate MentionsNoKeyword(s: string) {
    forall rank :: 0 <= rank < |CategoryKeywords| ==> !Mentions(s, rank)
  }

  /** The fixed text `errorDescription` puts before the message. */
  function Label(e: ServiceError): string {
    match e
    case AuthenticationFailed(_) => "Authentication failed"
    case NetworkError(_) => "Network error"
    case DatabaseError(_) => "Database error"
    case StorageError(_) => "Storage error"
    case Unknown(_) => "Unknown error"
  }

  /** `errorDescription`: the variant's label, a colon and a space, then the message. */
  function ErrorDescription(e: ServiceError): (d: string)
    ensures |d| > |e.message|
    ensures d[|d| - |e.message|..] == e.message
  {
    Label(e) + ": " + e.message
  }

  /**
   * `from`: classify a description by the first category, in priority
   * order, whose keywords it contains; the description is kept verbatim.
   */
  function From(description: string): (e: ServiceError)
    ensures e.message == description
    ensures Rank(e) < |CategoryKeywords| ==> Mentions(description, Rank(e))
    ensures forall rank :: 0 <= rank < Rank(e) ==> !Mentions(description, rank)
  {
    if Contains(description, "auth") || Contains(description, "login") then
      AuthenticationFailed(description)
    else if Contains(description, "network") || Contains(description, "connection") then
      NetworkError(description)
    else if Contains(description, "database") || Contains(description, "table") then
      DatabaseError(description)
    else if Contains(description, "storage") || Contains(description, "bucket") then
      StorageError(description)
    else
      Unknown(description)
  }

  /** The variant `From` picks is the first category the description mentions. */
  lemma FromPicksFirstMention(description: string, rank: nat)
    requires rank < |CategoryKeywords| && Mentions(description, rank)
    requires forall r :: 0 <= r < rank ==> !Mentions(description, r)
    ensures Rank(From(description)) == rank
  {
  }

  /** Text without any keyword is `unknown`. */
  lemma NoKeywordIsUnknown(description: string)
    requires MentionsNoKeyword(description)
    ensures From(description) == Unknown(description)
  {
  }

  /** Adding text around a description can only move it to a higher-priority category. */
  lemma FromMonotone(pre: string, s: string, post: string)
    ensures Rank(From(pre + s + post)) <= Rank(From(s))
  {
    var r := Rank(From(s));
    if r < |CategoryKeywords| {
      var (k1, k2) := CategoryKeywords[r];
      if Contains(s, k1) {
        ContainsPrepend(pre, s, k1);
        ContainsAppend(pre + s, k1, post);
      } else {
        ContainsPrepend(pre, s, k2);
        ContainsAppend(pre + s, k2, post);
      }
    }
  }

  /** The unit test's and the priority example's classifications. */
  lemma FromExamples()
    ensures From("auth failed").AuthenticationFailed?
    ensures Contains(From("auth failed").message, "auth")
    ensures From("auth network") == AuthenticationFailed("auth network")
  {
  }

  /** Different errors have different descriptions: the label's first letter fixes the variant. */
  lemma ErrorDescriptionInjective(e1: ServiceError, e2: ServiceError)
    requires ErrorDescription(e1) == ErrorDescription(e2)
    ensures e1 == e2
  {
    var d := ErrorDescription(e1);
    assert d[0] == Label(e1)[0] == Label(e2)[0];
    assert Label(e1) == Label(e2);
    assert d[|Label(e1)| + 2..] == e1.message;
    assert d[|Label(e2)| + 2..] == e2.message;
  }

  /**
   * Re-classifying an error through its own description keeps that
   * description as the message and never lands in a lower-priority category
   * than the message alone would.
   */
  lemma ReclassifyDescription(e: ServiceError)
    ensures From(ErrorDescription(e)).message == ErrorDescription(e)
    ensures Rank(From(ErrorDescription(e))) <= Rank(From(e.message))
  {
    assert ErrorDescription(e) == (Label(e) + ": ") + e.message + [];
    FromMonotone(Label(e) + ": ", e.message, []);
  }

  /** A keyword with a character that `w` lacks does not occur in `w`. */
  lemma MissingCharNotContained(w: string, k: string, c: char)
    requires c in k && c !in w
    ensures !Contains(w, k)
  {
    if Contains(w, k) {
      var i := ContainsOccurs(w, k);
    }
  }

  /** `w` mentions no keyword when each keyword, in priority order, has a character `w` lacks. */
  lemma NoKeywordByMissingChars(w: string, a: char, l: char, n: char, c: char, d: char, t: char, s: char, b: char)
    requires a in "auth" && a !in w
    requires l in "login" && l !in w
    requires n in "network" && n !in w
    requires c in "connection" && c !in w
    requires d in "database" && d !in w
    requires t in "table" && t !in w
    requires s in "storage" && s !in w
    requires b in "bucket" && b !in w
    ensures MentionsNoKeyword(w)
  {
    MissingCharNotContained(w, "auth", a);
    MissingCharNotContained(w, "login", l);
    MissingCharNotContained(w, "network", n);
    MissingCharNotContained(w, "connection", c);
    MissingCharNotContained(w, "database", d);
    MissingCharNotContained(w, "table", t);
    MissingCharNotContained(w, "storage", s);
    MissingCharNotContained(w, "bucket", b);
  }

  /** No keyword holds a space, so none can straddle one: keyword-free words stay keyword-free when joined. */
  lemma SpaceJoinMentionsNoKeyword(x: string, y: string)
    requires MentionsNoKeyword(x) && MentionsNoKeyword(y)
    ensures MentionsNoKeyword(x + " " + y)
  {
    forall r | 0 <= r < |CategoryKeywords|
      ensures !Mentions(x + " " + y, r)
    {
      var (k1, k2) := CategoryKeywords[r];
      assert ' ' !in k1 && ' ' !in k2;
      assert !Mentions(x, r) && !Mentions(y, r);
      if Contains(x + " " + y, k1) {
        ContainsAcross(x, ' ', y, k1);
      }
      if Contains(x + " " + y, k2) {
        ContainsAcross(x, ' ', y, k2);
      }
    }
  }
}

=== FILE: session_runtime.dfy ===
/**
 * The session runtime of the simulation package (`SupabaseService` in
 * Sources/RMSSimulation/SupabaseService.swift): three published fields kept
 * in step by `handleAuthStateChange` and `clearUserSession`, the throwing
 * authentication calls that drive them, and the list of realtime channels.
 */
module SessionRuntime {
  import opened Wrappers
  import opened Backend

  datatype SessionState = NotAuthenticated | Authenticated(session: Session) | Loading

  /** A realtime channel, known by its topic. */
  datatype Channel = Channel(topic: string)

  /** `currentUser`, `isAuthenticated`, `sessionState` and `realtimeSubscriptions`. */
  datatype Runtime = Runtime(
    currentUser: Option<User>,
    isAuthenticated: bool,
    sessionState: SessionState,
    subscriptions: seq<Channel>)

  /** The fields' initial values. */
  const Start: Runtime := Runtime(None, false, NotAuthenticated, [])

  /**
   * The runtime after a call, the channels on which the call invoked
   * `unsubscribe`, in order, and the error it let propagate, if any.
   */
  datatype Outcome = Outcome(runtime: Runtime, unsubscribed: seq<Channel>, thrown: Option<BackendError>)

  /** The published fields agree with each other; `loading` is never entered. */
  predicate Inv(r: Runtime) {
    && (r.isAuthenticated <==> r.sessionState.Authenticated?)
    && !r.sessionState.Loading?
    && (r.isAuthenticated ==> r.currentUser.Some?)
  }

  /** The stronger agreement: the current user is exactly the session's user. */
  predicate Strict(r: Runtime) {
    && Inv(r)
    && (r.sessionState.Authenticated? ==> r.currentUser == Some(r.sessionState.session.user))
    && (r.sessionState.NotAuthenticated? ==> r.currentUser.None?)
  }

  /** The signed-out fields, keeping whatever subscriptions there are. */
  function SignedOut(r: Runtime): Runtime {
    r.(currentUser := None, isAuthenticated := false, sessionState := NotAuthenticated)
  }

  /** `unsubscribeAll`: every channel is unsubscribed, in list order, and the list emptied. */
  function UnsubscribeAll(r: Runtime): (o: Outcome)
    ensures o.unsubscribed == r.subscriptions
    ensures o.runtime.subscriptions == []
    ensures o.runtime.(subscriptions := r.subscriptions) == r
    ensures o.thrown.None?
  {
    Outcome(r.(subscriptions := []), r.subscriptions, None)
  }

  /** `clearUserSession`: signed out, with every channel unsubscribed. */
  function ClearUserSession(r: Runtime): (o: Outcome)
    ensures o.runtime == Start
    ensures o.unsubscribed == r.subscriptions
    ensures o.thrown.None?
  {
    var cleared := SignedOut(r);
    UnsubscribeAll(cleared)
  }

  /** `handleAuthStateChange`: a session authenticates its user, its absence clears the session. */
  function HandleAuthStateChange(r: Runtime, session: Option<Session>): (o: Outcome)
    ensures Strict(o.runtime)
    ensures o.thrown.None?
    ensures o.runtime.isAuthenticated <==> session.Some?
    ensures session.Some? ==>
      o.runtime == r.(currentUser := Some(session.value.user), isAuthenticated := true,
                      sessionState := Authenticated(session.value))
      && o.unsubscribed == []
    ensures session.None? ==> o == ClearUserSession(r)
  {
    match session
    case Some(s) =>
      Outcome(r.(currentUser := Some(s.user), isAuthenticated := true, sessionState := Authenticated(s)), [], None)
    case None => ClearUserSession(r)
  }

  /** A call that rethrew the client's error before touching anything. */
  function Rethrown(r: Runtime, e: BackendError): Outcome {
    Outcome(r, [], Some(e))
  }

  /** `signIn`: the returned session goes through `handleAuthStateChange`; an error propagates. */
  function SignIn(r: Runtime, reply: Reply<Session>): (o: Outcome)
    ensures o.thrown.Some? <==> reply.Threw?
    ensures reply.Threw? ==> o.thrown == Some(reply.error)
    ensures reply.Threw? ==> o.runtime == r && o.unsubscribed == []
    ensures reply.Returned? ==>
      o.runtime == r.(currentUser := Some(reply.value.user), isAuthenticated := true,
                      sessionState := Authenticated(reply.value))
      && o.unsubscribed == []
  {
    match reply
    case Returned(session) => HandleAuthStateChange(r, Some(session))
    case Threw(e) => Rethrown(r, e)
  }

  /** `signUp`: the response's session, or its absence, goes through `handleAuthStateChange`. */
  function SignUp(r: Runtime, reply: Reply<SignUpResponse>): (o: Outcome)
    ensures o.thrown.Some? <==> reply.Threw?
    ensures reply.Threw? ==> o.thrown == Some(reply.error)
    ensures reply.Threw? ==> o.runtime == r && o.unsubscribed == []
    ensures reply.Returned? ==> (o.runtime.isAuthenticated <==> reply.value.session.Some?)
    ensures reply.Returned? && reply.value.session.Some? ==>
      o.runtime == r.(currentUser := Some(reply.value.session.value.user), isAuthenticated := true,
                      sessionState := Authenticated(reply.value.session.value))
      && o.unsubscribed == []
    ensures reply.Returned? && reply.value.session.None? ==>
      o.runtime == Start && o.unsubscribed == r.subscriptions
  {
    match reply
    case Returned(response) => HandleAuthStateChange(r, response.session)
    case Threw(e) => Rethrown(r, e)
  }

  /** `signOut`: local state is cleared only once the remote sign-out returned. */
  function SignOut(r: Runtime, reply: Reply<()>): (o: Outcome)
    ensures o.thrown.Some? <==> reply.Threw?
    ensures reply.Threw? ==> o.thrown == Some(reply.error)
    ensures reply.Returned? ==> o.runtime == Start && o.unsubscribed == r.subscriptions
    ensures reply.Threw? ==> o.runtime == r && o.unsubscribed == []
  {
    match reply
    case Returned(_) => ClearUserSession(r)
    case Threw(e) => Rethrown(r, e)
  }

  /**
   * `refreshSession`: the same steps as `signIn`. The new session goes
   * through `handleAuthStateChange`, and a failed refresh leaves the current
   * session in place.
   */
  function RefreshSession(r: Runtime, reply: Reply<Session>): (o: Outcome)
    ensures o.thrown.Some? <==> reply.Threw?
    ensures reply.Threw? ==> o.thrown == Some(reply.error)
    ensures reply.Threw? ==> o.runtime == r && o.unsubscribed == []
    ensures reply.Returned? ==>
      o.runtime == r.(currentUser := Some(reply.value.user), isAuthenticated := true,
                      sessionState := Authenticated(reply.value))
      && o.unsubscribed == []
  {
    SignIn(r, reply)
  }

  /**
   * A call whose only effect on the runtime is to propagate the client's
   * error: `signInWithOAuth` and `resetPassword`.
   */
  function PassThrough(r: Runtime, reply: Reply<()>): (o: Outcome)
    ensures o.runtime == r && o.unsubscribed == []
    ensures o.thrown.Some? <==> reply.Threw?
    ensures reply.Threw? ==> o.thrown == Some(reply.error)
  {
    match reply
    case Returned(_) => Outcome(r, [], None)
    case Threw(e) => Rethrown(r, e)
  }

  /**
   * `updatePassword` and `updateUserMetadata`: the returned user replaces
   * the current one, whatever the session says.
   */
  function UpdateUser(r: Runtime, reply: Reply<User>): (o: Outcome)
    ensures o.thrown.Some? <==> reply.Threw?
    ensures reply.Threw? ==> o.thrown == Some(reply.error)
    ensures o.unsubscribed == []
    ensures reply.Returned? ==> o.runtime == r.(currentUser := Some(reply.value))
    ensures reply.Threw? ==> o.runtime == r
  {
    match reply
    case Returned(user) => Outcome(r.(currentUser := Some(user)), [], None)
    case Threw(e) => Rethrown(r, e)
  }

  /** `isUserAuthenticated`. */
  function IsUserAuthenticated(r: Runtime): (b: bool)
    ensures Inv(r) ==> (b <==> r.isAuthenticated)
  {
    r.currentUser.Some? && r.isAuthenticated
  }

  /** The topic of a table's channel. */
  function TableTopic(table: string): string {
    "public:" + table
  }

  /** The topic of one row's channel. */
  function RowTopic(table: string, id: string): string {
    "public:" + table + ":id=eq." + id
  }

  /** `subscribeToTable` / `subscribeToRow`: one more channel at the end of the list, duplicates kept. */
  function Subscribe(r: Runtime, topic: string): (after: Runtime)
    ensures |after.subscriptions| == |r.subscriptions| + 1
    ensures after.subscriptions[..|r.subscriptions|] == r.subscriptions
    ensures after.subscriptions[|r.subscriptions|] == Channel(topic)
    ensures after.(subscriptions := r.subscriptions) == r
  {
    r.(subscriptions := r.subscriptions + [Channel(topic)])
  }

  /** Subscribing to the same table twice keeps two channels for it. */
  lemma SubscribeKeepsDuplicates(r: Runtime, table: string)
    ensures var after := Subscribe(Subscribe(r, TableTopic(table)), TableTopic(table));
      multiset(after.subscriptions)[Channel(TableTopic(table))]
        == multiset(r.subscriptions)[Channel(TableTopic(table))] + 2
  {
    var c := Channel(TableTopic(table));
    assert Subscribe(Subscribe(r, TableTopic(table)), TableTopic(table)).subscriptions
      == r.subscriptions + [c] + [c];
  }

  /** A row's topic is the topic of a table whose name carries the row filter. */
  lemma RowTopicIsTableTopic(table: string, id: string)
    ensures RowTopic(table, id) == TableTopic(table + ":id=eq." + id)
  {
  }

  /** The two kinds of topic cannot meet when the table name has no colon. */
  lemma TableTopicNotRowTopic(table: string, table2: string, id: string)
    requires ':' !in table
    ensures TableTopic(table) != RowTopic(table2, id)
  {
    var row := RowTopic(table2, id);
    assert row[7 + |table2|] == ':';
    assert forall k :: 7 <= k < |TableTopic(table)| ==> TableTopic(table)[k] == table[k - 7];
  }

  /** Row topics are unambiguous for table names without a colon. */
  lemma RowTopicInjective(t1: string, i1: string, t2: string, i2: string)
    requires ':' !in t1 && ':' !in t2
    requires RowTopic(t1, i1) == RowTopic(t2, i2)
    ensures t1 == t2 && i1 == i2
  {
    var s := RowTopic(t1, i1);
    assert forall k :: 0 <= k < |t1| ==> s[7 + k] == t1[k];
    assert forall k :: 0 <= k < |t2| ==> s[7 + k] == t2[k];
    assert s[7 + |t1|] == ':' && s[7 + |t2|] == ':';
    assert |t1| == |t2|;
    assert t1 == s[7..7 + |t1|] == t2;
    assert i1 == s[14 + |t1|..] == i2;
  }

  /** One call of the runtime's public surface, with the reply its client call got. */
  datatype Op =
    | SignInOp(session: Reply<Session>)
    | SignUpOp(response: Reply<SignUpResponse>)
    | OAuthOp(launched: Reply<()>)
    | SignOutOp(done: Reply<()>)
    | ResetPasswordOp(sent: Reply<()>)
    | UpdatePasswordOp(user: Reply<User>)
    | UpdateMetadataOp(user: Reply<User>)
    | RefreshOp(session: Reply<Session>)
    | AuthEventOp(current: Option<Session>)
    | SubscribeTableOp(table: string)
    | SubscribeRowOp(table: string, id: string)
    | UnsubscribeAllOp

  /** The runtime after one call. */
  function Step(r: Runtime, op: Op): (after: Runtime)
    ensures Inv(r) ==> Inv(after)
    ensures Strict(r) && !op.UpdatePasswordOp? && !op.UpdateMetadataOp? ==> Strict(after)
  {
    match op
    case SignInOp(reply) => SignIn(r, reply).runtime
    case SignUpOp(reply) => SignUp(r, reply).runtime
    case OAuthOp(reply) => PassThrough(r, reply).runtime
    case SignOutOp(reply) => SignOut(r, reply).runtime
    case ResetPasswordOp(reply) => PassThrough(r, reply).runtime
    case UpdatePasswordOp(reply) => UpdateUser(r, reply).runtime
    case UpdateMetadataOp(reply) => UpdateUser(r, reply).runtime
    case RefreshOp(reply) => RefreshSession(r, reply).runtime
    case AuthEventOp(session) => HandleAuthStateChange(r, session).runtime
    case SubscribeTableOp(table) => Subscribe(r, TableTopic(table))
    case SubscribeRowOp(table, id) => Subscribe(r, RowTopic(table, id))
    case UnsubscribeAllOp => UnsubscribeAll(r).runtime
  }

  /** The runtime after a sequence of calls, in order. */
  function Run(r: Runtime, ops: seq<Op>): Runtime
    decreases |ops|
  {
    if |ops| == 0 then r else Run(Step(r, ops[0]), ops[1..])
  }

  /** Every runtime reachable from the start keeps its fields in step and never shows `loading`. */
  lemma {:induction false} RunKeepsInv(r: Runtime, ops: seq<Op>)
    requires Inv(r)
    ensures Inv(Run(r, ops))
    ensures IsUserAuthenticated(Run(r, ops)) <==> Run(r, ops).isAuthenticated
    decreases |ops|
  {
    if |ops| > 0 {
      RunKeepsInv(Step(r, ops[0]), ops[1..]);
    }
  }

  /** Without user updates, the current user is always exactly the session's user. */
  lemma {:induction false} RunWithoutUpdatesIsStrict(r: Runtime, ops: seq<Op>)
    requires Strict(r)
    requires forall i :: 0 <= i < |ops| ==> !ops[i].UpdatePasswordOp? && !ops[i].UpdateMetadataOp?
    ensures Strict(Run(r, ops))
    decreases |ops|
  {
    if |ops| > 0 {
      RunWithoutUpdatesIsStrict(Step(r, ops[0]), ops[1..]);
    }
  }

  /**
   * A user update while signed out leaves a current user with no session,
   * so the stronger agreement is not an invariant.
   */
  lemma UpdateWhileSignedOut(u: User)
    ensures Run(Start, [UpdatePasswordOp(Returned(u))]).currentUser == Some(u)
    ensures Run(Start, [UpdatePasswordOp(Returned(u))]).sessionState == NotAuthenticated
    ensures !IsUserAuthenticated(Run(Start, [UpdatePasswordOp(Returned(u))]))
  {
    var ops := [UpdatePasswordOp(Returned(u))];
    assert Run(Start, ops) == Run(Step(Start, ops[0]), ops[1..]);
  }
}

=== FILE: strings.dfy ===
/**
 * The Foundation string operations the core relies on, over `seq<char>`:
 * `contains`, `components(separatedBy:)` and `trimmingCharacters(in:)`.
 * Characters stand for Unicode scalars; grapheme clusters are not modelled.
 */
module Strings {

  /** Unicode general category Zs plus the horizontal tab (Foundation's `.whitespaces`). */
  const Whitespaces: set<char> := {
    ' ', '\t', '\U{00A0}', '\U{1680}', '\U{2000}', '\U{2001}', '\U{2002}', '\U{2003}',
    '\U{2004}', '\U{2005}', '\U{2006}', '\U{2007}', '\U{2008}', '\U{2009}', '\U{200A}',
    '\U{202F}', '\U{205F}', '\U{3000}'
  }

  /** Line and paragraph separators (Foundation's `.newlines`). */
  const Newlines: set<char> := {
    '\n', '\U{000B}', '\U{000C}', '\r', '\U{0085}', '\U{2028}', '\U{2029}'
  }

  /** Foundation's `.whitespacesAndNewlines`. */
  const WhitespacesAndNewlines: set<char> := Whitespaces + Newlines

  /** Every character of `s` belongs to `cs`. */
  predicate AllIn(s: string, cs: set<char>) {
    forall i :: 0 <= i < |s| ==> s[i] in cs
  }

  // ---------------------------------------------------------------------------
  // Substring search
  // ---------------------------------------------------------------------------

  /** `s.contains(k)`: `k` occurs in `s` as a contiguous piece. */
  predicate Contains(s: string, k: string)
    decreases |s|
  {
    k <= s || (|s| > 0 && Contains(s[1..], k))
  }

  /** A one-character needle is found exactly when the character occurs. */
  lemma {:induction false} ContainsChar(s: string, c: char)
    ensures Contains(s, [c]) <==> c in s
    decreases |s|
  {
    if |s| > 0 {
      ContainsChar(s[1..], c);
      assert s == [s[0]] + s[1..];
    }
  }

  /** `k` occurs in `s` starting at position `i`. */
  predicate OccursAt(s: string, k: string, i: int) {
    0 <= i <= |s| - |k| && s[i..i + |k|] == k
  }

  /** A contained needle occurs at some position. */
  lemma {:induction false} ContainsOccurs(s: string, k: string) returns (i: int)
    requires Contains(s, k)
    ensures OccursAt(s, k, i)
    decreases |s|
  {
    if k <= s {
      i := 0;
      assert s[..|k|] == k;
    } else {
      var j := ContainsOccurs(s[1..], k);
      i := j + 1;
      assert s[i..i + |k|] == s[1..][j..j + |k|];
    }
  }

  /** An occurrence that straddles a character `c` not in the needle is impossible, so the needle lies on one side. */
  lemma ContainsAcross(x: string, c: char, y: string, k: string)
    requires c !in k
    requires Contains(x + [c] + y, k)
    ensures Contains(x, k) || Contains(y, k)
  {
    var s := x + [c] + y;
    var i := ContainsOccurs(s, k);
    assert forall m :: i <= m < i + |k| ==> s[m] == k[m - i];
    assert s[|x|] == c;
    if i + |k| <= |x| {
      assert x[i..i + |k|] == k;
      OccursContains(x, k, i);
    } else {
      assert i > |x|;
      var j := i - |x| - 1;
      assert y[j..j + |k|] == k;
      OccursContains(y, k, j);
    }
  }

  /** A needle is contained from any position where it starts. */
  lemma {:induction false} OccursContains(s: string, k: string, i: int)
    requires OccursAt(s, k, i)
    ensures Contains(s, k)
    decreases i
  {
    if i == 0 {
      assert s[..|k|] == k;
    } else {
      assert s[1..][i - 1..i - 1 + |k|] == k;
      OccursContains(s[1..], k, i - 1);
    }
  }

  /** Text appended after the searched string keeps every occurrence. */
  lemma {:induction false} ContainsAppend(s: string, k: string, post: string)
    requires Contains(s, k)
    ensures Contains(s + post, k)
    decreases |s|
  {
    if !(k <= s) {
      ContainsAppend(s[1..], k, post);
      assert (s + post)[1..] == s[1..] + post;
    }
  }

  /** Text prepended before the searched string keeps every occurrence. */
  lemma {:induction false} ContainsPrepend(pre: string, s: string, k: string)
    requires Contains(s, k)
    ensures Contains(pre + s, k)
    decreases |pre|
  {
    if |pre| > 0 {
      ContainsPrepend(pre[1..], s, k);
      assert (pre + s)[1..] == pre[1..] + s;
    } else {
      assert pre + s == s;
    }
  }

  // ---------------------------------------------------------------------------
  // Splitting and joining
  // ---------------------------------------------------------------------------

  /** The inverse of `Split`: the parts glued back with the separator between them. */
  function Join(parts: seq<string>, sep: char): string
    decreases |parts|
  {
    if |parts| == 0 then []
    else if |parts| == 1 then parts[0]
    else parts[0] + [sep] + Join(parts[1..], sep)
  }

  /** How many times `c` occurs in `s`. */
  function Occurrences(s: string, c: char): (n: nat)
    ensures n == 0 <==> c !in s
    decreases |s|
  {
    if |s| == 0 then 0
    else (if s[0] == c then 1 else 0) + Occurrences(s[1..], c)
  }

  /** Occurrences add up over a concatenation. */
  lemma {:induction false} OccurrencesAppend(a: string, b: string, c: char)
    ensures Occurrences(a + b, c) == Occurrences(a, c) + Occurrences(b, c)
    decreases |a|
  {
    if |a| > 0 {
      assert (a + b)[1..] == a[1..] + b;
      OccurrencesAppend(a[1..], b, c);
    } else {
      assert a + b == b;
    }
  }

  /** `s.components(separatedBy: sep)`: the maximal separator-free pieces of `s`, in order. */
  function Split(s: string, sep: char): (parts: seq<string>)
    ensures |parts| == Occurrences(s, sep) + 1
    ensures forall i :: 0 <= i < |parts| ==> sep !in parts[i]
    ensures Join(parts, sep) == s
    decreases |s|
  {
    if |s| == 0 then [[]]
    else
      var rest := Split(s[1..], sep);
      assert s == [s[0]] + s[1..];
      if s[0] == sep then
        JoinCons([], rest, sep);
        [[]] + rest
      else
        JoinExtendFirst(s[0], rest, sep);
        [[s[0]] + rest[0]] + rest[1..]
  }

  lemma JoinCons(head: string, rest: seq<string>, sep: char)
    requires |rest| >= 1
    ensures Join([head] + rest, sep) == head + [sep] + Join(rest, sep)
  {
    assert ([head] + rest)[1..] == rest;
  }

  lemma JoinExtendFirst(c: char, parts: seq<string>, sep: char)
    requires |parts| >= 1
    ensures Join([[c] + parts[0]] + parts[1..], sep) == [c] + Join(parts, sep)
  {
    var extended := [[c] + parts[0]] + parts[1..];
    if |parts| > 1 {
      assert extended[1..] == parts[1..];
    }
  }

  /** A separator-free string is a single piece. */
  lemma SplitNoSeparator(s: string, sep: char)
    requires sep !in s
    ensures Split(s, sep) == [s]
  {
  }

  /** Splitting after a separator-free prefix and one separator peels that prefix off. */
  lemma {:induction false} SplitCons(p: string, sep: char, r: string)
    requires sep !in p
    ensures Split(p + [sep] + r, sep) == [p] + Split(r, sep)
    decreases |p|
  {
    var s := p + [sep] + r;
    if |p| > 0 {
      assert s[1..] == p[1..] + [sep] + r;
      var rest := Split(s[1..], sep);
      SplitCons(p[1..], sep, r);
      assert rest == [p[1..]] + Split(r, sep);
      assert s[0] == p[0] && p[0] != sep;
      assert Split(s, sep) == [[s[0]] + rest[0]] + rest[1..];
      assert [p[0]] + p[1..] == p;
    } else {
      assert s[1..] == r;
      assert Split(s, sep) == [[]] + Split(s[1..], sep);
    }
  }

  /** `Split` undoes `Join` for non-empty lists of separator-free parts. */
  lemma {:induction false} SplitJoin(parts: seq<string>, sep: char)
    requires |parts| >= 1
    requires forall i :: 0 <= i < |parts| ==> sep !in parts[i]
    ensures Split(Join(parts, sep), sep) == parts
    decreases |parts|
  {
    if |parts| == 1 {
      SplitNoSeparator(parts[0], sep);
    } else {
      SplitJoin(parts[1..], sep);
      SplitCons(parts[0], sep, Join(parts[1..], sep));
      assert [parts[0]] + parts[1..] == parts;
    }
  }

  /** Two pieces: the string is the first piece, one separator, and the second piece. */
  lemma SplitInTwo(s: string, sep: char)
    requires |Split(s, sep)| == 2
    ensures s == Split(s, sep)[0] + [sep] + Split(s, sep)[1]
  {
    var parts := Split(s, sep);
    assert parts[1..] == [parts[1]];
  }

  /** The separator-free pieces of `s` are all non-empty. */
  predicate NoEmptyPart(parts: seq<string>) {
    forall i :: 0 <= i < |parts| ==> |parts[i]| > 0
  }

  /**
   * Character-level reading of "no empty piece": the string is non-empty,
   * does not start or end with the separator, and never holds two in a row.
   */
  predicate SeparatedWell(s: string, sep: char) {
    && |s| > 0
    && s[0] != sep
    && s[|s| - 1] != sep
    && forall i :: 0 <= i < |s| - 1 ==> !(s[i] == sep && s[i + 1] == sep)
  }

  /** When `s` starts with a non-separator, the first piece is non-empty and the rest are those of `s[1..]`. */
  lemma SplitHeadNonSeparator(s: string, sep: char)
    requires |s| > 0 && s[0] != sep
    ensures |Split(s, sep)[0]| > 0
    ensures Split(s, sep)[1..] == Split(s[1..], sep)[1..]
  {
  }

  /** Dropping a leading non-separator that is followed by a non-separator keeps `SeparatedWell` as it was. */
  lemma SeparatedWellDropOne(s: string, sep: char)
    requires |s| >= 2 && s[0] != sep && s[1] != sep
    ensures SeparatedWell(s, sep) <==> SeparatedWell(s[1..], sep)
  {
    var t := s[1..];
    assert forall i :: 0 <= i < |t| ==> t[i] == s[i + 1];
  }

  /** Dropping a leading non-separator and the separator after it keeps `SeparatedWell` as it was. */
  lemma SeparatedWellDropTwo(s: string, sep: char)
    requires |s| >= 2 && s[0] != sep && s[1] == sep
    ensures SeparatedWell(s, sep) <==> SeparatedWell(s[2..], sep)
  {
    var u := s[2..];
    assert forall i :: 0 <= i < |u| ==> u[i] == s[i + 2];
    if SeparatedWell(s, sep) {
      assert |u| > 0 && u[0] == s[2];
    }
  }

  /** A non-empty head does not change whether some piece is empty. */
  lemma NoEmptyPartCons(head: string, rest: seq<string>)
    requires |head| > 0
    ensures NoEmptyPart([head] + rest) <==> NoEmptyPart(rest)
  {
    var all := [head] + rest;
    assert forall i :: 0 <= i < |rest| ==> all[i + 1] == rest[i];
  }

  /** Behind a leading non-separator and a non-separator, the pieces are non-empty as those of `s[1..]` are. */
  lemma NoEmptyPartDropOne(s: string, sep: char)
    requires |s| >= 2 && s[0] != sep && s[1] != sep
    ensures NoEmptyPart(Split(s, sep)) <==> NoEmptyPart(Split(s[1..], sep))
  {
    var parts := Split(s, sep);
    var q := Split(s[1..], sep);
    SplitHeadNonSeparator(s, sep);
    SplitHeadNonSeparator(s[1..], sep);
    NoEmptyPartCons(parts[0], q[1..]);
    NoEmptyPartCons(q[0], q[1..]);
    assert parts == [parts[0]] + q[1..];
    assert q == [q[0]] + q[1..];
  }

  /** Behind a leading non-separator and a separator, the pieces are non-empty as those of `s[2..]` are. */
  lemma NoEmptyPartDropTwo(s: string, sep: char)
    requires |s| >= 2 && s[0] != sep && s[1] == sep
    ensures NoEmptyPart(Split(s, sep)) <==> NoEmptyPart(Split(s[2..], sep))
  {
    var parts := Split(s, sep);
    var q := Split(s[1..], sep);
    SplitHeadNonSeparator(s, sep);
    assert s[1..][1..] == s[2..];
    assert q == [[]] + Split(s[2..], sep);
    assert parts == [parts[0]] + Split(s[2..], sep);
  }

  /** Every piece of the split is non-empty exactly when the separators sit well. */
  lemma {:induction false} NoEmptyPartIff(s: string, sep: char)
    ensures NoEmptyPart(Split(s, sep)) <==> SeparatedWell(s, sep)
    decreases |s|
  {
    if |s| == 0 || s[0] == sep {
      assert |Split(s, sep)[0]| == 0;
    } else if |s| == 1 {
      SplitNoSeparator(s, sep);
    } else if s[1] == sep {
      NoEmptyPartDropTwo(s, sep);
      NoEmptyPartIff(s[2..], sep);
      SeparatedWellDropTwo(s, sep);
    } else {
      NoEmptyPartDropOne(s, sep);
      NoEmptyPartIff(s[1..], sep);
      SeparatedWellDropOne(s, sep);
    }
  }

  // ---------------------------------------------------------------------------
  // Trimming
  // ---------------------------------------------------------------------------

  /** How many characters of `cs` open `s`. */
  function LeadingCount(s: string, cs: set<char>): (n: nat)
    ensures n <= |s|
    ensures forall i :: 0 <= i < n ==> s[i] in cs
    ensures n < |s| ==> s[n] !in cs
    decreases |s|
  {
    if |s| > 0 && s[0] in cs then 1 + LeadingCount(s[1..], cs) else 0
  }

  /** How many characters of `cs` close `s`. */
  function TrailingCount(s: string, cs: set<char>): (n: nat)
    ensures n <= |s|
    ensures forall i :: |s| - n <= i < |s| ==> s[i] in cs
    ensures n < |s| ==> s[|s| - n - 1] !in cs
    decreases |s|
  {
    if |s| > 0 && s[|s| - 1] in cs then 1 + TrailingCount(s[..|s| - 1], cs) else 0
  }

  /**
   * Trimming keeps `s[a..b]`: everything cut off on either side is in `cs`,
   * and what is kept, when non-empty, begins and ends outside `cs`.
   */
  predicate TrimmedAt(s: string, cs: set<char>, a: int, b: int) {
    && 0 <= a <= b <= |s|
    && (forall i :: 0 <= i < a ==> s[i] in cs)
    && (forall i :: b <= i < |s| ==> s[i] in cs)
    && (a < b ==> s[a] !in cs && s[b - 1] !in cs)
  }

  /** `s.trimmingCharacters(in: cs)`. */
  function Trim(s: string, cs: set<char>): (r: string)
    ensures TrimmedAt(s, cs, LeadingCount(s, cs), LeadingCount(s, cs) + |r|)
    ensures r == s[LeadingCount(s, cs)..LeadingCount(s, cs) + |r|]
  {
    var a := LeadingCount(s, cs);
    var tail := s[a..];
    var r := tail[..|tail| - TrailingCount(tail, cs)];
    assert forall i :: a + |r| <= i < |s| ==> s[i] == tail[i - a];
    r
  }

  /** There is only one way to trim: any split point meeting `TrimmedAt` gives `Trim`. */
  lemma TrimUnique(s: string, cs: set<char>, a: int, b: int)
    requires TrimmedAt(s, cs, a, b)
    ensures Trim(s, cs) == s[a..b]
  {
  }

  /** The whole string is trimmed away exactly when it consists of characters of `cs`. */
  lemma TrimEmptyIff(s: string, cs: set<char>)
    ensures |Trim(s, cs)| == 0 <==> AllIn(s, cs)
  {
  }

  /** Trimming twice is trimming once. */
  lemma TrimIdempotent(s: string, cs: set<char>)
    ensures Trim(Trim(s, cs), cs) == Trim(s, cs)
  {
    var r := Trim(s, cs);
    TrimUnique(r, cs, 0, |r|);
  }

  /** `s` neither begins nor ends with a character of `cs`. */
  predicate IsTrimmed(s: string, cs: set<char>) {
    |s| == 0 || (s[0] !in cs && s[|s| - 1] !in cs)
  }

  /** Trimming leaves exactly the already-trimmed strings alone. */
  lemma TrimFixedIff(s: string, cs: set<char>)
    ensures Trim(s, cs) == s <==> IsTrimmed(s, cs)
  {
    if IsTrimmed(s, cs) {
      TrimUnique(s, cs, 0, |s|);
    }
  }

  /** Characters of `cs` around a string do not change its trimmed form. */
  lemma TrimSurrounded(pre: string, s: string, post: string, cs: set<char>)
    requires AllIn(pre, cs) && AllIn(post, cs)
    ensures Trim(pre + s + post, cs) == Trim(s, cs)
  {
    var a := LeadingCount(s, cs);
    var b := a + |Trim(s, cs)|;
    var t := pre + s + post;
    assert forall i :: |pre| <= i < |pre| + |s| ==> t[i] == s[i - |pre|];
    assert forall i :: |pre| + |s| <= i < |t| ==> t[i] == post[i - |pre| - |s|];
    assert t[|pre| + a..|pre| + b] == s[a..b];
    assert TrimmedAt(s, cs, a, b);
    assert TrimmedAt(t, cs, |pre| + a, |pre| + b);
    TrimUnique(t, cs, |pre| + a, |pre| + b);
  }

  /** Every character of the trimmed text occurs in the original. */
  lemma TrimKeepsCharacters(s: string, cs: set<char>, c: char)
    requires c in Trim(s, cs)
    ensures c in s
  {
    var a := LeadingCount(s, cs);
    var r := Trim(s, cs);
    var i :| 0 <= i < |r| && r[i] == c;
    assert s[a + i] == c;
  }
}

=== FILE: validation.dfy ===
/**
 * `ValidationUtils`: the shape test for e-mail addresses, the password length
 * rule and their conjunction used by the login form.
 */
module Validation {
  import opened Strings

  /** The minimum number of characters of a password. */
  const MinPasswordLength: nat := 6

  /**
   * `isValidEmail`: after trimming whitespace and newlines the text splits on
   * `@` into a non-empty local part and a non-empty domain; the domain holds a
   * dot and none of its dot-separated labels is empty.
   */
  predicate IsValidEmail(email: string) {
    var trimmed := Trim(email, WhitespacesAndNewlines);
    if |trimmed| == 0 then false
    else
      var parts := Split(trimmed, '@');
      if |parts| != 2 then false
      else
        var localPart := parts[0];
        var domainPart := parts[1];
        if |localPart| == 0 || |domainPart| == 0 then false
        else if !Contains(domainPart, ".") then false
        else
          var domainComponents := Split(domainPart, '.');
          if |domainComponents| < 2 then false
          else NoEmptyPart(domainComponents)
  }

  /** `isValidPassword`. */
  predicate IsValidPassword(password: string) {
    |password| >= MinPasswordLength
  }

  /** `isValidLoginForm`. */
  predicate IsValidLoginForm(email: string, password: string) {
    IsValidEmail(email) && IsValidPassword(password) && |email| > 0 && |password| > 0
  }

  /**
   * Reference reading of an address, position by position: `t[at]` is the only
   * `@`, something precedes it, and the domain after it holds a dot with no
   * empty label.
   */
  predicate AddressAt(t: string, at: int) {
    && 0 < at < |t|
    && t[at] == '@'
    && '@' !in t[..at]
    && '@' !in t[at + 1..]
    && '.' in t[at + 1..]
    && SeparatedWell(t[at + 1..], '.')
  }

  /** An accepted address has the reference shape once trimmed. */
  lemma ValidEmailHasShape(email: string) returns (at: int)
    requires IsValidEmail(email)
    ensures AddressAt(Trim(email, WhitespacesAndNewlines), at)
  {
    var t := Trim(email, WhitespacesAndNewlines);
    var parts := Split(t, '@');
    SplitInTwo(t, '@');
    at := |parts[0]|;
    assert t[..at] == parts[0];
    assert t[at + 1..] == parts[1];
    ContainsChar(parts[1], '.');
    NoEmptyPartIff(parts[1], '.');
  }

  /** Every text with the reference shape once trimmed is accepted. */
  lemma ShapeIsValidEmail(email: string, at: int)
    requires AddressAt(Trim(email, WhitespacesAndNewlines), at)
    ensures IsValidEmail(email)
  {
    var t := Trim(email, WhitespacesAndNewlines);
    var parts := [t[..at], t[at + 1..]];
    assert Join(parts, '@') == t;
    SplitJoin(parts, '@');
    var domain := t[at + 1..];
    ContainsChar(domain, '.');
    NoEmptyPartIff(domain, '.');
  }

  /** `IsValidEmail` accepts exactly the texts whose trimmed form has the reference shape. */
  lemma ValidEmailIff(email: string)
    ensures IsValidEmail(email) <==> exists at :: AddressAt(Trim(email, WhitespacesAndNewlines), at)
  {
    if IsValidEmail(email) {
      var at := ValidEmailHasShape(email);
    }
    if exists at :: AddressAt(Trim(email, WhitespacesAndNewlines), at) {
      var at :| AddressAt(Trim(email, WhitespacesAndNewlines), at);
      ShapeIsValidEmail(email, at);
    }
  }

  /** Empty and whitespace-only input is rejected: trimming precedes the emptiness check. */
  lemma BlankEmailRejected(email: string)
    requires AllIn(email, WhitespacesAndNewlines)
    ensures !IsValidEmail(email)
  {
    TrimEmptyIff(email, WhitespacesAndNewlines);
  }

  /** Whitespace and newlines around an address do not change the verdict. */
  lemma SurroundingWhitespaceIgnored(pre: string, email: string, post: string)
    requires AllIn(pre, WhitespacesAndNewlines) && AllIn(post, WhitespacesAndNewlines)
    ensures IsValidEmail(pre + email + post) == IsValidEmail(email)
    ensures IsValidEmail(Trim(email, WhitespacesAndNewlines)) == IsValidEmail(email)
  {
    TrimSurrounded(pre, email, post, WhitespacesAndNewlines);
    TrimIdempotent(email, WhitespacesAndNewlines);
  }

  /** Text without an `@` is never an address. */
  lemma NoAtRejected(email: string)
    requires '@' !in email
    ensures !IsValidEmail(email)
  {
    if IsValidEmail(email) {
      var at := ValidEmailHasShape(email);
      TrimKeepsCharacters(email, WhitespacesAndNewlines, '@');
    }
  }

  /** In `local@domain` with `@`-free parts, the only `@` sits right after the local part. */
  lemma OnlyAtPosition(localPart: string, domain: string, at: int)
    requires '@' !in localPart && '@' !in domain
    requires 0 <= at < |localPart + "@" + domain| && (localPart + "@" + domain)[at] == '@'
    ensures at == |localPart|
  {
    var t := localPart + "@" + domain;
    assert forall i :: 0 <= i < |localPart| ==> t[i] == localPart[i];
    assert forall i :: |localPart| < i < |t| ==> t[i] == domain[i - |localPart| - 1];
  }

  /** `local@domain` is already trimmed when its ends are not whitespace. */
  lemma AddressAlreadyTrimmed(localPart: string, domain: string)
    requires |localPart| == 0 || localPart[0] !in WhitespacesAndNewlines
    requires |domain| == 0 || domain[|domain| - 1] !in WhitespacesAndNewlines
    ensures Trim(localPart + "@" + domain, WhitespacesAndNewlines) == localPart + "@" + domain
  {
    var t := localPart + "@" + domain;
    assert '@' !in WhitespacesAndNewlines;
    assert t[0] == (if |localPart| == 0 then '@' else localPart[0]);
    assert t[|t| - 1] == (if |domain| == 0 then '@' else domain[|domain| - 1]);
    TrimUnique(t, WhitespacesAndNewlines, 0, |t|);
  }

  /**
   * An already trimmed `local@domain` with `@`-free parts is accepted exactly when
   * the local part is non-empty and the domain holds a dot with no leading,
   * trailing or doubled dot.
   */
  lemma AddressParts(localPart: string, domain: string)
    requires '@' !in localPart && '@' !in domain
    requires |localPart| == 0 || localPart[0] !in WhitespacesAndNewlines
    requires |domain| == 0 || domain[|domain| - 1] !in WhitespacesAndNewlines
    ensures IsValidEmail(localPart + "@" + domain)
        <==> |localPart| > 0 && '.' in domain && SeparatedWell(domain, '.')
  {
    var t := localPart + "@" + domain;
    AddressAlreadyTrimmed(localPart, domain);
    assert t[..|localPart|] == localPart;
    assert t[|localPart| + 1..] == domain;
    if IsValidEmail(t) {
      var at := ValidEmailHasShape(t);
      OnlyAtPosition(localPart, domain, at);
    }
    if |localPart| > 0 && '.' in domain && SeparatedWell(domain, '.') {
      ShapeIsValidEmail(t, |localPart|);
    }
  }

  /** A well-formed, already trimmed `local@domain` is accepted. */
  lemma AcceptedAddress(localPart: string, domain: string, email: string)
    requires email == localPart + "@" + domain
    requires '@' !in localPart && '@' !in domain
    requires |localPart| > 0 && localPart[0] !in WhitespacesAndNewlines
    requires |domain| > 0 && domain[|domain| - 1] !in WhitespacesAndNewlines
    requires '.' in domain && SeparatedWell(domain, '.')
    ensures IsValidEmail(email)
  {
    AddressParts(localPart, domain);
  }

  /** A trimmed `local@domain` with an empty local part or a dot-free domain is rejected. */
  lemma RejectedAddress(localPart: string, domain: string, email: string)
    requires email == localPart + "@" + domain
    requires '@' !in localPart && '@' !in domain
    requires |localPart| == 0 || localPart[0] !in WhitespacesAndNewlines
    requires |domain| == 0 || domain[|domain| - 1] !in WhitespacesAndNewlines
    requires |localPart| == 0 || '.' !in domain
    ensures !IsValidEmail(email)
  {
    AddressParts(localPart, domain);
  }

  /** An accepted address is non-empty, so the form rule is exactly the two field rules. */
  lemma LoginFormIsConjunction(email: string, password: string)
    ensures IsValidLoginForm(email, password) <==> IsValidEmail(email) && IsValidPassword(password)
  {
    if IsValidEmail(email) {
      var at := ValidEmailHasShape(email);
      TrimKeepsCharacters(email, WhitespacesAndNewlines, '@');
    }
  }
}

/** The expectations of the `ValidationUtils` unit tests, proved of the model. */
module ValidationExamples {
  import opened Strings
  import opened Validation

  /** The facts `AcceptedAddress` needs about a domain. */
  predicate DomainReady(domain: string) {
    && '@' !in domain && |domain| > 0 && domain[|domain| - 1] !in WhitespacesAndNewlines
    && '.' in domain && SeparatedWell(domain, '.')
  }

  lemma ExampleComDomain(domain: string)
    requires domain == "example.com"
    ensures DomainReady(domain)
  {
    assert domain[7] == '.';
  }

  lemma ExampleCoUkDomain(domain: string)
    requires domain == "domain.co.uk"
    ensures DomainReady(domain)
  {
    assert domain[6] == '.';
  }

  lemma ExampleOrgDomain(domain: string)
    requires domain == "example.org"
    ensures DomainReady(domain)
  {
    assert domain[7] == '.';
  }

  lemma PlainAddressParts(localPart: string, domain: string)
    requires localPart == "test" && domain == "example.com"
    ensures IsValidEmail(localPart + "@" + domain)
  {
    ExampleComDomain(domain);
    AcceptedAddress(localPart, domain, localPart + "@" + domain);
  }

  lemma DottedAddressParts(localPart: string, domain: string)
    requires localPart == "user.name" && domain == "domain.co.uk"
    ensures IsValidEmail(localPart + "@" + domain)
  {
    ExampleCoUkDomain(domain);
    AcceptedAddress(localPart, domain, localPart + "@" + domain);
  }

  lemma TaggedAddressParts(localPart: string, domain: string)
    requires localPart == "test+tag" && domain == "example.org"
    ensures IsValidEmail(localPart + "@" + domain)
  {
    ExampleOrgDomain(domain);
    AcceptedAddress(localPart, domain, localPart + "@" + domain);
  }

  /** `test@example.com` is accepted. */
  lemma AcceptsPlainAddress(email: string)
    requires email == "test@example.com"
    ensures IsValidEmail(email)
  {
    assert email == "test" + "@" + "example.com";
    PlainAddressParts("test", "example.com");
  }

  /** `user.name@domain.co.uk` is accepted: dots in the local part are not inspected. */
  lemma AcceptsDottedAddress(email: string)
    requires email == "user.name@domain.co.uk"
    ensures IsValidEmail(email)
  {
    assert email == "user.name" + "@" + "domain.co.uk";
    DottedAddressParts("user.name", "domain.co.uk");
  }

  /** `test+tag@example.org` is accepted. */
  lemma AcceptsTaggedAddress(email: string)
    requires email == "test+tag@example.org"
    ensures IsValidEmail(email)
  {
    assert email == "test+tag" + "@" + "example.org";
    TaggedAddressParts("test+tag", "example.org");
  }

  /** The addresses the unit tests expect to be accepted. */
  lemma AcceptedExamples(email: string)
    requires email in ["test@example.com", "user.name@domain.co.uk", "test+tag@example.org"]
    ensures IsValidEmail(email)
  {
    if email == "test@example.com" {
      AcceptsPlainAddress(email);
    } else if email == "user.name@domain.co.uk" {
      AcceptsDottedAddress(email);
    } else {
      AcceptsTaggedAddress(email);
    }
  }

  /** Texts without an `@` are rejected. */
  lemma RejectsMissingAt(email: string)
    requires email == "invalid" || email == "test.example.com" || email == "invalid-email"
    ensures !IsValidEmail(email)
  {
    NoAtRejected(email);
  }

  /** An address with nothing before the `@` is rejected. */
  lemma RejectsEmptyLocalPart(email: string)
    requires email == "@example.com"
    ensures !IsValidEmail(email)
  {
    assert email == "" + "@" + "example.com";
    RejectedAddress("", "example.com", email);
  }

  /** An address with nothing after the `@` is rejected. */
  lemma RejectsEmptyDomain(email: string)
    requires email == "test@"
    ensures !IsValidEmail(email)
  {
    RejectedAddress("test", "", email);
  }

  /** The addresses the unit tests expect to be rejected. */
  lemma RejectedExamples(email: string)
    requires email in ["", "invalid", "@example.com", "test@", "test.example.com", "invalid-email"]
    ensures !IsValidEmail(email)
  {
    if email == "" {
      BlankEmailRejected(email);
    } else if email == "@example.com" {
      RejectsEmptyLocalPart(email);
    } else if email == "test@" {
      RejectsEmptyDomain(email);
    } else {
      RejectsMissingAt(email);
    }
  }

  /** Passwords of six characters or more pass, shorter ones do not. */
  lemma PasswordExamples(password: string)
    requires password in ["password123", "123456", "abcdef", "", "12345", "abc"]
    ensures IsValidPassword(password) <==> password in ["password123", "123456", "abcdef"]
  {
  }

  /** The login-form cases of the unit tests: only the first pair is a valid form. */
  lemma LoginFormExamples(email: string, password: string)
    requires (email, password) in [
      ("test@example.com", "password123"), ("", "password123"), ("test@example.com", ""),
      ("invalid-email", "password123"), ("test@example.com", "123")]
    ensures IsValidLoginForm(email, password) <==> (email, password) == ("test@example.com", "password123")
  {
    if email == "test@example.com" {
      AcceptsPlainAddress(email);
    } else {
      RejectedExamples(email);
    }
  }
}

=== FILE: wrappers.dfy ===
/** Optional values and results, standing in for Swift optionals and thrown errors. */
module Wrappers {

  /** A Swift optional: `nil` is `None`. */
  datatype Option<+T> = None | Some(value: T)

  /** A Swift `Result<Success, Failure>`. */
  datatype Result<+T, +E> = Success(value: T) | Failure(error: E)
}
